=== FILE: README.md ===
# Dafny model of the XY-pad agent backend

The service turns a point on a two-dimensional pad into a system prompt for a
language model. The horizontal axis `x` chooses the output density: executive
summary, detailed report or raw verbose. The vertical axis `y` chooses the
creativity level: strictly factual, balanced insight or speculative creative.
`y` also sets the sampling temperature, which runs linearly from 0.2 to 0.9.

The model covers:

- the prompt engine that assembles the system prompt, and the full prompt
  sent to the model;
- the request schema and its field constraints;
- the token and cost estimator;
- the file-based artifact store, which saves, reads, lists and deletes
  generated documents;
- the model client's chunk filter, its error prefix, and the cleanup of
  fenced JSON replies with a fallback configuration;
- the in-memory execution registry of the HTTP layer:
  - registering an execution;
  - streaming its tokens;
  - saving the finished text as an artifact;
  - listing executions;
  - the prompt-preview and configuration-generation endpoints.

Modules follow the source files:

- `Models`: `backend/models.py`.
- `PromptEngine`: `backend/prompt_engine.py`.
- `TokenTracker`: `backend/token_tracker.py`.
- `ArtifactManager`: `backend/artifact_manager.py`.
- `GeminiClient`: `backend/gemini_client.py`.
- `AgentService`: the registry and endpoints of `backend/main.py`.

Three helper modules support them:

- `Wrappers`: `Option` and `Result`.
- `Text`: prefixes, slices, Python's `str.strip`, and zero-padded digits.
- `Utf8`: the UTF-8 byte length of a string.

Everything is a function, or a method without side effects, over immutable values:

- The storage directory is a map from file name to file: contents plus
  modification time.
- The execution registry is a map from execution id to record.
- The model API is a function parameter.
- A random id is a parameter: `hex`, or the artifact id.
- So is a clock reading: `t` and `now`.

The text of the prompts is a `Wording` parameter (`PromptEngine.SourceWording`
is the service's own wording), so every property holds for any wording. The
configuration prompt takes its instruction block as a parameter too; the
service's block is `GeminiClient.ArchitectInstructions`.

The streaming endpoint is a generator that runs only as far as the client
reads it. `AgentService.StreamAgentResponse` takes `pulls`, the number of
events the client consumed:

- With no pull, nothing happens.
- A client that stops while tokens are still coming leaves the execution in
  the streaming state, with no artifact.
- Only a client that reads past the last token sees the artifact saved, or
  the error recorded.

Behaviours of the code that the model keeps as they are:

- A pad position outside `[0, 1]` is rejected by request validation. It is
  not clamped.
- An execution's status is not monotone. Streaming an execution again sets it
  back to `streaming`, and a completed execution can later end in `error`.
- An error message recorded by one stream stays in the record after a later
  successful stream.
- When the model API fails, the configuration endpoint as written answers 500
  with `Failed to generate agent config: cannot access local variable 'json'
  where it is not associated with a value`. The prefix appears once, and the
  model's message is lost (see Findings).
- With the client corrected, the same failure's detail carries the prefix
  `Failed to generate agent config: ` twice, followed by the model's prefixed
  message. The client adds the prefix once and the endpoint adds it again.

## Model

| member | source | states |
|---|---|---|
| Models.ValidateRequest | backend/models.py:12-51 | a body is accepted exactly when the query has 1 to 2000 characters, both coordinates lie in [0, 1] and the role (analyst when omitted) is one of the three personas; a rejected body reports precisely the violated constraints |
| Models.ValidateExactlyValid | backend/models.py:36-51 | validation yields a request if and only if that request is valid and the body carries its fields |
| Models.ValidateBodyOf | backend/models.py:36-51 | every valid request, written back as a body, validates to itself |
| Models.OvershootRejected | backend/models.py:12-23 | a position past the pad edges is rejected with both coordinate errors, not clamped |
| PromptEngine.DensityBands | backend/prompt_engine.py:24-56 | density bands: below 0.3 summary, from 0.3 below 0.7 report, from 0.7 verbose; a larger x never chooses a less detailed band |
| PromptEngine.CreativityBands | backend/prompt_engine.py:59-94 | creativity bands with the same cut points; a larger y never chooses a more conservative band |
| PromptEngine.DensityInstruction | backend/prompt_engine.py:24-56 | the instruction opens with the band's `OUTPUT_DENSITY:` line, followed by that band's bullet lines |
| PromptEngine.CreativityInstruction | backend/prompt_engine.py:59-94 | the instruction opens with the band's `CREATIVITY_LEVEL:` line, followed by that band's bullet lines |
| PromptEngine.DensityInstructionNamesBand | backend/prompt_engine.py:24-56 | reading the first line of the density instruction gives back exactly the band of x |
| PromptEngine.CreativityInstructionNamesBand | backend/prompt_engine.py:59-94 | reading the first line of the creativity instruction gives back exactly the band of y |
| PromptEngine.Temperature | backend/prompt_engine.py:97-108 | on the pad the temperature lies in [0.2, 0.9], and the two edges give 0.2 and 0.9 |
| PromptEngine.TemperatureMonotone | backend/prompt_engine.py:97-108 | temperature is strictly increasing in y |
| PromptEngine.TemperatureInverse | backend/prompt_engine.py:97-108 | y is recovered from the temperature as (t - 0.2) / 0.7 |
| PromptEngine.CreativityBandByTemperature | backend/prompt_engine.py:59-108 | the creativity band is determined by the temperature alone, with cut points 0.41 and 0.69 |
| PromptEngine.RecommendedTemperatureGap | backend/prompt_engine.py:59-108 | the temperature stated in a band's bullet lines is within 0.21 of the temperature actually used, and the gap 0.21 is reached at y = 0.7 |
| PromptEngine.RoleOf | backend/prompt_engine.py:129 | a known role name selects its own persona; any other name selects the analyst |
| PromptEngine.BasePrompt | backend/prompt_engine.py:17-21 | the base prompt is the table entry for the role, or the analyst's entry for a role the table lacks |
| PromptEngine.BuildPromptComponents | backend/prompt_engine.py:110-153 | the components carry the role's base prompt, both band instructions, the query unchanged, the temperature of y, and the system prompt assembled from those parts |
| PromptEngine.ValidPositionValidComponents | backend/prompt_engine.py:110-153 | for a position on the pad the components satisfy the response schema's temperature bound |
| PromptEngine.Corners | backend/prompt_engine.py:24-108 | the pad's corners give the factual summary at temperature 0.2 and the speculative verbose report at 0.9 |
| PromptEngine.BuildFullPrompt | backend/prompt_engine.py:155-187 | the full prompt begins with the system prompt and ends with the query between the query header and the response footer |
| PromptEngine.FullPromptCarriesQuery | backend/prompt_engine.py:155-187 | cutting the query back out of the full prompt yields the user's query exactly |
| PromptEngine.SystemPromptRoundTrip | backend/prompt_engine.py:134-144 | every assembled system prompt parses back to the persona and bands it was built from |
| PromptEngine.PromptShowsSettings | backend/prompt_engine.py:110-153 | the system prompt shown to the user names exactly the bands of the requested position |
| PromptEngine.SamePromptSameBands | backend/prompt_engine.py:110-153 | two positions give the same system prompt only if they fall in the same bands |
| TokenTracker.EstimateTokens | backend/token_tracker.py:23-36 | the estimate is the number of whole four-character groups in the text |
| TokenTracker.EstimateMonotone | backend/token_tracker.py:23-36 | a longer text never has a smaller estimate |
| TokenTracker.EstimateConcat | backend/token_tracker.py:23-36 | the estimate of a concatenation is the sum of the parts' estimates or one more |
| TokenTracker.Round6 | backend/token_tracker.py:39-52 | the rounded value is a whole number of millionths, at most half a millionth from the input |
| TokenTracker.Round6Exact | backend/token_tracker.py:39-52 | a value with at most six decimals is unchanged by rounding |
| TokenTracker.Round6Monotone | backend/token_tracker.py:39-52 | rounding preserves order |
| TokenTracker.CalculateCost | backend/token_tracker.py:39-52 | the cost has at most six decimal places and is within half a millionth of the input tokens at 0.000075 per thousand plus the output tokens at 0.0003 per thousand |
| TokenTracker.RawCostPerMillion | backend/token_tracker.py:19-20 | the per-thousand prices equal the published $0.075 and $0.30 per million tokens |
| TokenTracker.CostNonNegative | backend/token_tracker.py:39-52 | no tokens cost nothing; non-negative counts never cost less than nothing |
| TokenTracker.CostMonotone | backend/token_tracker.py:39-52 | more tokens never cost less |
| TokenTracker.CostExample | backend/token_tracker.py:39-52 | 245 input and 350 output tokens cost 0.000123375, reported as 0.000123 |
| TokenTracker.UsageSummary | backend/token_tracker.py:55-76 | the usage has the estimates of prompt and output, their sum as total, their cost, and satisfies the schema's non-negativity bounds |
| TokenTracker.UsageMonotone | backend/token_tracker.py:55-76 | longer output never lowers the completion tokens or the cost |
| Utf8.EncodeAppend | backend/artifact_manager.py:79 | encoding a concatenation is concatenating the encodings |
| Utf8.EncodeLengthBounds | backend/artifact_manager.py:79 | a string's UTF-8 size is between its length and four times its length |
| Utf8.AsciiByteLength | backend/artifact_manager.py:79 | an ASCII string's UTF-8 size equals its length |
| Text.Strip | backend/gemini_client.py:176 | stripping yields a slice of the input with no whitespace at either end, and only whitespace was removed |
| Text.StripUnique | backend/gemini_client.py:176 | any slice with those properties is the stripped string |
| Text.StripIdempotent | backend/gemini_client.py:184 | stripping twice is stripping once |
| Text.StripPadded | backend/gemini_client.py:176-184 | stripping a text padded with whitespace on both sides gives the text back when it has no edge whitespace |
| Text.DigitsRoundTrip | backend/artifact_manager.py:65 | reading back a zero-padded decimal field of w digits gives the number written modulo 10^w, so a number below 10^w comes back exactly |
| ArtifactManager.Extension | backend/artifact_manager.py:58-63 | markdown is stored as `md`, json as `json`, anything else as `txt` |
| ArtifactManager.ExtensionDistinguishesTypes | backend/artifact_manager.py:58-63 | distinct accepted file types get distinct extensions |
| ArtifactManager.Stamp | backend/artifact_manager.py:65 | the timestamp in a file name has fifteen characters with an underscore between date and time |
| ArtifactManager.StampRoundTrip | backend/artifact_manager.py:65 | the timestamp in a file name parses back to the instant it was written from |
| ArtifactManager.MetaPath | backend/artifact_manager.py:84 | an artifact's metadata file name is its id followed by `_meta.json`, nothing more |
| ArtifactManager.MetaPathInjective | backend/artifact_manager.py:84 | distinct artifact ids have distinct metadata files |
| ArtifactManager.ContentNameNotMeta | backend/artifact_manager.py:65 | a content file name never matches the metadata glob |
| ArtifactManager.SaveArtifactAsWritten | backend/artifact_manager.py:36-88 | a save succeeds exactly for the accepted file types, and the content file is on disk in every case |
| ArtifactManager.OrphanContentFile | backend/artifact_manager.py:63-81 | a rejected file type raises after the content file was written, so the directory has changed |
| ArtifactManager.SaveArtifact | backend/artifact_manager.py:36-88 | an accepted save writes the content file and a metadata record with the content, its UTF-8 size, the time, role and type, and touches no other file; a rejected save leaves the directory unchanged |
| ArtifactManager.SaveAgreesOnValidTypes | backend/artifact_manager.py:36-88 | for accepted file types the corrected save does exactly what the written one does |
| ArtifactManager.ReadMetadata | backend/artifact_manager.py:108-111 | a metadata file reads as its record exactly when it holds one that validates |
| ArtifactManager.GetArtifact | backend/artifact_manager.py:90-111 | a missing metadata file is reported as not found; otherwise the file is read and validated |
| ArtifactManager.SaveThenGet | backend/artifact_manager.py:36-111 | a saved artifact reads back as the metadata the save returned |
| ArtifactManager.SavePreservesOtherArtifacts | backend/artifact_manager.py:36-111 | saving one artifact does not change what any other id reads as |
| ArtifactManager.MetaFiles | backend/artifact_manager.py:122-126 | the glob selects exactly the files whose names end in `_meta.json` |
| ArtifactManager.SliceCount | backend/artifact_manager.py:122-126 | the `[:limit]` slice keeps `limit` files, all of them when fewer exist, and for a negative limit all but that many |
| ArtifactManager.SelectStep | backend/artifact_manager.py:122-126 | taking the newest remaining file keeps the selection distinct, newest first and complete |
| ArtifactManager.SelectRecent | backend/artifact_manager.py:122-126 | the selection has the slice's length, holds distinct metadata files newest first, and no file left out is newer than one selected |
| ArtifactManager.ReadAll | backend/artifact_manager.py:128-133 | reading succeeds exactly when every selected file validates, and then gives their records in order |
| ArtifactManager.ListArtifacts | backend/artifact_manager.py:113-135 | the listing is the newest `limit` metadata files in order of modification time, read and validated one by one |
| ArtifactManager.DeleteArtifact | backend/artifact_manager.py:137-165 | an unknown id returns false and changes nothing; a record whose content name denotes a directory (`""`, `.` or `..`) raises and leaves everything in place; a successful delete removes the metadata file and the content file it names and nothing else |
| ArtifactManager.DeleteFailsOnlyOnBadReference | backend/artifact_manager.py:155-163 | deleting a valid artifact fails exactly when its record names, as its content, its own metadata file or a directory |
| ArtifactManager.GetAfterDelete | backend/artifact_manager.py:90-165 | after a successful delete the artifact is not found |
| ArtifactManager.SaveDeleteRoundTrip | backend/artifact_manager.py:36-165 | saving into a directory without the artifact's files and deleting again restores the directory and returns true |
| GeminiClient.ApiError | backend/gemini_client.py:72-74 | a model API error is reported as `Gemini API error: ` followed by the original message |
| GeminiClient.ApiErrorInjective | backend/gemini_client.py:72-74 | the reported error determines the original message |
| GeminiClient.NonEmptyChunks | backend/gemini_client.py:66-70 | the filtered chunks are all non-empty and concatenate to the same text as the received ones |
| GeminiClient.NonEmptyChunksKeepsOrder | backend/gemini_client.py:66-70 | the filter keeps the chunks in order and drops only empty ones, so a stream without empty chunks passes unchanged |
| GeminiClient.StreamGenerate | backend/gemini_client.py:33-74 | the streamed tokens are exactly the non-empty chunk texts, in the order they arrived, so together they carry the whole generated text; an upstream failure ends the stream with exactly `Gemini API error: ` followed by the failure's message |
| GeminiClient.Generate | backend/gemini_client.py:76-108 | a successful reply is returned unchanged; a failure is reported as the prefix followed by the original message |
| GeminiClient.CleanFences | backend/gemini_client.py:176-184 | the cleaned reply is a slice of the raw reply with no whitespace at either end |
| GeminiClient.CleanFencesUnfenced | backend/gemini_client.py:176-184 | a reply with no fence at either end is only stripped |
| GeminiClient.CleanFencesFenced | backend/gemini_client.py:176-184 | a body fenced with a plain or json-tagged fence comes out exactly as the body |
| GeminiClient.CleanFencesDoubleOpening | backend/gemini_client.py:177-182 | the two opening checks run in sequence, so a json-tagged fence directly followed by a bare fence loses both: a json fence, a bare fence, `x` and a closing fence clean to `x` |
| GeminiClient.FallbackConfig | backend/gemini_client.py:187-201 | the fallback has exactly one agent, `agent-1`, the analyst named `General Agent` at (0.5, 0.5), and suggests the user's goal as the query |
| GeminiClient.GenerateAgentConfigAsWritten | backend/gemini_client.py:163-203 | as written, any model API failure ends in an unbound-variable error for the locally imported `json` module |
| GeminiClient.ApiFailureEscapesWrapper | backend/gemini_client.py:173-203 | as written, an API failure never yields the intended `Failed to generate agent config: ` error |
| GeminiClient.GenerateAgentConfig | backend/gemini_client.py:163-203 | an API failure raises the prefixed, wrapped error; an unparsable reply gives the fallback; a parsable reply gives its parsed configuration |
| GeminiClient.AgentConfigAgreesOnReply | backend/gemini_client.py:163-203 | when the model replies, the corrected and the written versions agree |
| GeminiClient.FallbackKeepsGoal | backend/gemini_client.py:187-201 | an unparsable reply yields the fallback, which suggests the goal itself as the query |
| GeminiClient.ConfigPrompt | backend/gemini_client.py:125-162 | the configuration prompt is the instruction block followed by the goal heading, the user goal and the JSON output heading, with nothing else in between (its length is the sum of the parts) |
| GeminiClient.ArchitectPrompt | backend/gemini_client.py:125-162 | the service's configuration prompt is its architect instructions followed by the goal heading, the goal and the output heading, and nothing else |
| GeminiClient.ConfigPromptCarriesGoal | backend/gemini_client.py:155-161 | the user goal can be read back out of the configuration prompt as the text between the goal heading and the output heading |
| AgentService.PreviewPrompt | backend/main.py:66-91 | a preview succeeds exactly when the request validates, and then shows components with an in-range temperature and the query unchanged |
| AgentService.ExecuteAgent | backend/main.py:94-131 | a valid request registers a pending execution under `exec_` plus the hex id, with the request and its components, and a stream URL that is exactly the stream path followed by that id; other executions are kept; an invalid request changes nothing |
| AgentService.PreviewMatchesExecution | backend/main.py:66-131 | executing a request returns the same prompt components its preview shows |
| AgentService.ExecutePreservesConsistency | backend/main.py:94-131 | registering an execution keeps every record consistent with its request's components |
| AgentService.TokenEvents | backend/main.py:171-177 | each streamed token becomes one token event carrying it |
| AgentService.ReceivedTokens | backend/main.py:171-177 | the text a client receives from the token events is the concatenation of the tokens |
| AgentService.ReceivedAppend | backend/main.py:171-208 | the received text of an event sequence is the concatenation of its parts' received texts |
| AgentService.StreamAgentResponse | backend/main.py:134-218 | an unknown id fails with `Execution not found`; a known one emits no more events than were pulled and changes no other execution and no record's request, components or creation time |
| AgentService.UpdateKeeps | backend/main.py:157-206 | updating a record's status, artifact or error keeps the rest of the registry |
| AgentService.Conclude | backend/main.py:180-208 | after the last token, a failure records the error and emits it; success saves the text as a markdown artifact, records it as completed and emits its id with the usage of prompt and output; no file other than the artifact's two files changes |
| AgentService.UnreadStreamChangesNothing | backend/main.py:148-157 | a stream the client never reads changes nothing |
| AgentService.StoppedStreamSavesNothing | backend/main.py:157-177 | a client that stops while tokens are coming receives them in order, leaves the execution streaming, and nothing is saved |
| AgentService.CompletedStreamSavesTokens | backend/main.py:148-202 | a fully read successful stream sends every token in order and then the completion; it saves exactly the received text as a markdown artifact under the execution's role, and completes the execution with that artifact; every other file in the store is left as it was |
| AgentService.FailedStreamReportsError | backend/main.py:148-208 | a failed stream sends every token in order and then the prefixed error event, never a completion, records the error and saves nothing |
| AgentService.StreamPreservesConsistency | backend/main.py:134-218 | streaming keeps every record consistent: a completed one has an artifact and an errored one an error |
| AgentService.StreamedPromptIsShownPrompt | backend/main.py:160-168 | the prompt sent to the model starts with the system prompt the execution showed and ends with its query |
| AgentService.ListExecutions | backend/main.py:301-316 | the listing has one summary per registered execution, with distinct ids, each matching its record, and the total is the registry's size |
| AgentService.GenerateConfigEndpointAsWritten | backend/main.py:256-298 | a missing or empty goal is a 400 error; a model failure is a 500 with the single-prefixed unbound-`json` detail; otherwise the parsed configuration of the cleaned reply, or the fallback, is returned |
| AgentService.GenerateConfigEndpoint | backend/main.py:256-298 | on the corrected client: a missing or empty goal is a 400 error; a model failure is a 500 whose detail carries the config prefix twice and then the model's prefixed message; otherwise the parsed configuration or the fallback |
| AgentService.ConfigEndpointsAgreeOnReply | backend/main.py:256-298 | the written and the corrected endpoint answer alike whenever the model call succeeds |
| AgentService.AsWrittenEndpointHidesModelError | backend/gemini_client.py:173-203 | as written, every model failure gives the same detail, which never carries the model's error prefix; the corrected endpoint passes the model's message through |

## Left out

- HTTP routing, SSE framing and JSON serialisation of events and records are not modelled. Events are values, and a metadata file holds the record itself. Serialising and re-reading it is taken to be the identity.
- The model SDK's internals are abstracted:
  - its generation settings: top-p, top-k, maximum output tokens, and the 0.3 temperature of configuration requests;
  - how a reply is chunked;
  - what its exceptions say.
- Asynchrony, `asyncio.sleep` and concurrent requests are not modelled. Every operation runs to completion, apart from a stream that stops after `pulls` events.
- Floating point: pad coordinates, temperatures and costs are exact reals. Float rounding in `0.2 + y * 0.7` and in the cost products is not modelled.
- Random ids and clocks are parameters: the uuid hex behind `exec_` ids and artifact ids, `utcnow`, and file modification times.
- ArtifactManager.SaveArtifact: takes the artifact id as a parameter. It does not build the `art_` prefix and twelve hex digits itself.
- ArtifactManager.Stamp: is stated for years of four digits. `strftime`'s rendering of years below 1000 is not modelled.
- Models.DateTime: stops at the second. `datetime.utcnow()` also carries microseconds, which reach the metadata's and the registry's `created_at`; the model drops them.
- Models.ValidDateTime: allows day 31 in every month, because calendar validity is the clock's concern.
- File names are not checked for path separators in ids, for example path traversal through an artifact id.
- The store is one flat directory. A recorded content name with a path separator, which would reach into a subdirectory or elsewhere, is not modelled; of the names that denote a directory, only `""`, `.` and `..` are.
- `json.loads` is a parameter `parse` that returns a configuration or nothing. Replies that parse to JSON values of other shapes are not modelled.
- The `goal` field of the configuration request is a string or absent. Other JSON types in that field are not modelled.
- Insertion order of the execution registry is not modelled. ListExecutions states the listing's contents but not its order.
- The order among metadata files with equal modification times is left open.
- `created_at.isoformat()` in the execution listing is not modelled; the summary carries the DateTime itself.
- Also out of scope:
  - configuration loading (`config.py`);
  - the health and root endpoints;
  - the HTTP wrappers of the artifact endpoints;
  - the modules' `__main__` self-test blocks.
- The failure branches of the preview and execute endpoints are not modelled. Those handlers raise only if prompt building raises, which it cannot do for a validated request.

## Findings

| source | as written | input that shows it | evidently intended | confidence | as-written member | corrected member |
|---|---|---|---|---|---|---|
| backend/gemini_client.py:173-203 | `import json` inside the `try` makes `json` a local name of the function; when `generate` raises before that line, evaluating `except json.JSONDecodeError` raises `UnboundLocalError` | any model API failure, e.g. an invalid key | the error is wrapped as `Failed to generate agent config: Gemini API error: …` | not executed | GeminiClient.GenerateAgentConfigAsWritten, GeminiClient.ApiFailureEscapesWrapper, AgentService.GenerateConfigEndpointAsWritten, AgentService.AsWrittenEndpointHidesModelError | GeminiClient.GenerateAgentConfig, AgentService.GenerateConfigEndpoint |
| backend/artifact_manager.py:63-81 | the content file is written before the metadata is validated, so a file type outside markdown, json and text raises with an orphan `.txt` file left on disk | `file_type = "csv"` | reject the type without touching the directory | not executed | ArtifactManager.SaveArtifactAsWritten, ArtifactManager.OrphanContentFile | ArtifactManager.SaveArtifact |

=== FILE: agent_service.dfy ===
/**
 * The service's execution workflow: a request is validated and registered
 * with the prompt it will run under, a stream replays the model's output as
 * token events and ends by saving the artifact or reporting the failure, and
 * the registry can be listed. The identifier generator, the clock and the
 * model are parameters.
 */
module AgentService {
  import opened Wrappers
  import opened Text
  import opened Models
  import opened PromptEngine
  import opened TokenTracker
  import opened ArtifactManager
  import opened GeminiClient

  // ---------------------------------------------------------------------------
  // The execution registry

  /** Where an execution is in its life. */
  datatype Status = Pending | Streaming | Completed | Errored

  /** One registered execution. `artifactId` and `error` are absent until set. */
  datatype Execution = Execution(
    request: ExecutionRequest,
    components: PromptComponents,
    status: Status,
    createdAt: DateTime,
    artifactId: Option<string>,
    error: Option<string>)

  /** The in-memory registry, keyed by execution id. */
  type Registry = map<string, Execution>

  /**
   * A registered execution is consistent with its request: the request is
   * valid and the stored components are the ones the prompt engine builds
   * for it; a completed one names its artifact and a failed one its error.
   */
  predicate Consistent(w: Wording, e: Execution)
  {
    && ValidRequest(e.request)
    && e.components == BuildPromptComponents(w, e.request.agentRole, e.request.position.x, e.request.position.y, e.request.query)
    && (e.status == Completed ==> e.artifactId.Some?)
    && (e.status == Errored ==> e.error.Some?)
  }

  predicate ConsistentRegistry(w: Wording, reg: Registry)
  {
    forall id :: id in reg ==> Consistent(w, reg[id])
  }

  /** Every entry but `id` is as it was, and no entry came or went except `id`. */
  predicate OthersKept(before: Registry, after: Registry, id: string)
  {
    && after.Keys == before.Keys + {id}
    && forall other :: other in before && other != id ==> after[other] == before[other]
  }

  // ---------------------------------------------------------------------------
  // Preview and execute

  /** The prompt preview: the components for a valid request, the field errors otherwise. */
  function PreviewPrompt(w: Wording, body: RequestBody): (r: Result<PromptComponents, set<FieldError>>)
    ensures r.Success? <==> ValidateRequest(body).Success?
    ensures r.Failure? ==> r.error == ValidateRequest(body).error
    ensures r.Success? ==> ValidComponents(r.value) && r.value.userQuery == body.query
  {
    match ValidateRequest(body)
    case Failure(errors) => Failure(errors)
    case Success(req) =>
      ValidPositionValidComponents(w, req.agentRole, req.position, req.query);
      Success(BuildPromptComponents(w, req.agentRole, req.position.x, req.position.y, req.query))
  }

  const ExecutionIdPrefix: string := "exec_"
  const StreamPath: string := "/api/v1/agent/stream/"

  /** What registering an execution answers. */
  datatype ExecuteResponse = ExecuteResponse(executionId: string, components: PromptComponents, streamUrl: string)

  /** The registry after a call, with the call's answer. */
  datatype Executed = Executed(registry: Registry, response: Result<ExecuteResponse, set<FieldError>>)

  /**
   * Registering an execution. `hex` stands for the twelve hex digits cut
   * from a fresh UUID, `now` for the clock. A rejected body leaves the
   * registry alone; an accepted one is stored as pending with the components
   * the caller is shown, under an id that overwrites any earlier entry with
   * the same id.
   */
  function ExecuteAgent(w: Wording, reg: Registry, hex: string, body: RequestBody, now: DateTime): (r: Executed)
    ensures r.response.Failure? <==> ValidateRequest(body).Failure?
    ensures r.response.Failure? ==> r.registry == reg && r.response.error == ValidateRequest(body).error
    ensures r.response.Success? ==>
      var id := r.response.value.executionId;
      && id == ExecutionIdPrefix + hex
      && id in r.registry
      && r.registry[id].request == ValidateRequest(body).value
      && r.registry[id].status == Pending
      && r.registry[id].createdAt == now
      && r.registry[id].artifactId == None && r.registry[id].error == None
      && r.registry[id].components == r.response.value.components
      && StartsWith(r.response.value.streamUrl, StreamPath) && EndsWith(r.response.value.streamUrl, id)
      && |r.response.value.streamUrl| == |StreamPath| + |id|
      && OthersKept(reg, r.registry, id)
  {
    match ValidateRequest(body)
    case Failure(errors) => Executed(reg, Failure(errors))
    case Success(req) =>
      var id := ExecutionIdPrefix + hex;
      var components := BuildPromptComponents(w, req.agentRole, req.position.x, req.position.y, req.query);
      ConcatParts(StreamPath, id);
      Executed(reg[id := Execution(req, components, Pending, now, None, None)],
               Success(ExecuteResponse(id, components, StreamPath + id)))
  }

  /** What the preview shows for a body is exactly what executing it registers. */
  lemma PreviewMatchesExecution(w: Wording, reg: Registry, hex: string, body: RequestBody, now: DateTime)
    ensures var r := ExecuteAgent(w, reg, hex, body, now);
      r.response.Success? <==> PreviewPrompt(w, body).Success?
    ensures var r := ExecuteAgent(w, reg, hex, body, now);
      r.response.Success? ==> r.registry[r.response.value.executionId].components == PreviewPrompt(w, body).value
  {
  }

  /** Registering keeps every entry consistent. */
  lemma ExecutePreservesConsistency(w: Wording, reg: Registry, hex: string, body: RequestBody, now: DateTime)
    requires ConsistentRegistry(w, reg)
    ensures ConsistentRegistry(w, ExecuteAgent(w, reg, hex, body, now).registry)
  {
  }

  // ---------------------------------------------------------------------------
  // Streaming

  /** One server-sent event. */
  datatype Event =
    | Token(content: string)
    | Complete(artifactId: string, usage: TokenUsage)
    | ErrorEvent(message: string)

  /** The registry, the artifact directory and the events sent, after a stream. */
  datatype Streamed = Streamed(registry: Registry, store: Store, events: seq<Event>)

  const NotFoundDetail: string := "Execution not found"

  /** A token event per streamed text, in order. */
  function TokenEvents(tokens: seq<string>): (es: seq<Event>)
    ensures |es| == |tokens|
    ensures forall i :: 0 <= i < |es| ==> es[i] == Token(tokens[i])
  {
    if |tokens| == 0 then [] else [Token(tokens[0])] + TokenEvents(tokens[1..])
  }

  /** The text a client assembles from the token events it received. */
  function Received(events: seq<Event>): string
  {
    if |events| == 0 then ""
    else (if events[0].Token? then events[0].content else "") + Received(events[1..])
  }

  lemma {:induction false} ReceivedTokens(tokens: seq<string>)
    ensures Received(TokenEvents(tokens)) == Concat(tokens)
  {
    if |tokens| > 0 {
      var es := TokenEvents(tokens);
      assert es[1..] == TokenEvents(tokens[1..]);
      ReceivedTokens(tokens[1..]);
    }
  }

  lemma {:induction false} ReceivedAppend(a: seq<Event>, b: seq<Event>)
    ensures Received(a + b) == Received(a) + Received(b)
  {
    if |a| > 0 {
      assert (a + b)[0] == a[0] && (a + b)[1..] == a[1..] + b;
      ReceivedAppend(a[1..], b);
      var h := if a[0].Token? then a[0].content else "";
      assert Received(a + b) == h + (Received(a[1..]) + Received(b));
      assert h + (Received(a[1..]) + Received(b)) == (h + Received(a[1..])) + Received(b);
    } else {
      assert a + b == b;
    }
  }

  /** The prompt a registered request is sent to the model with. */
  function FullPromptOf(w: Wording, req: ExecutionRequest): string
  {
    BuildFullPrompt(w, req.agentRole, req.position.x, req.position.y, req.query)
  }

  /**
   * Streaming an execution's response, as far as the client has consumed
   * it. `sdk` is the model: what it delivers for a prompt and a
   * temperature. `artifactId`, `t` and `now` are the fresh id, the clock
   * reading and the file time of the save. `pulls` is how many events the
   * client asked for: nothing runs before the first; the first marks the
   * execution as streaming; once every token has been sent, the next pull
   * saves the artifact and completes, or reports the model's failure.
   */
  function StreamAgentResponse(w: Wording, reg: Registry, store: Store, executionId: string,
                               sdk: (string, real) -> Upstream,
                               artifactId: string, t: DateTime, now: real, pulls: nat): (r: Result<Streamed, string>)
    ensures r.Failure? <==> executionId !in reg
    ensures r.Failure? ==> r.error == NotFoundDetail
    ensures r.Success? ==> |r.value.events| <= pulls && StreamKept(reg, r.value.registry, executionId)
  {
    if executionId !in reg then Failure(NotFoundDetail)
    else if pulls == 0 then
      UpdateKeeps(reg, executionId, reg[executionId]);
      assert reg[executionId := reg[executionId]] == reg;
      Success(Streamed(reg, store, []))
    else
      var e := reg[executionId];
      var prompt := FullPromptOf(w, e.request);
      var st := StreamGenerate(sdk(prompt, e.components.temperature));
      var tokens := TokenEvents(st.tokens);
      if pulls <= |tokens| then
        UpdateKeeps(reg, executionId, e.(status := Streaming));
        Success(Streamed(reg[executionId := e.(status := Streaming)], store, tokens[..pulls]))
      else
        var end := Conclude(e, prompt, st, store, artifactId, t, now);
        UpdateKeeps(reg, executionId, end.execution);
        Success(Streamed(reg[executionId := end.execution], end.store, tokens + [end.event]))
  }

  /**
   * What a stream may change: only the entry it streams, and of that entry
   * neither the request, the components nor the creation time.
   */
  predicate StreamKept(before: Registry, after: Registry, id: string)
  {
    && id in before && after.Keys == before.Keys
    && (forall other :: other in before && other != id ==> after[other] == before[other])
    && after[id].request == before[id].request
    && after[id].components == before[id].components
    && after[id].createdAt == before[id].createdAt
  }

  lemma UpdateKeeps(reg: Registry, id: string, e: Execution)
    requires id in reg
    requires e.request == reg[id].request && e.components == reg[id].components && e.createdAt == reg[id].createdAt
    ensures StreamKept(reg, reg[id := e], id)
  {
  }

  /** How a stream ends once every token has been sent: the entry, the directory and the last event. */
  datatype Ending = Ending(execution: Execution, store: Store, event: Event)

  /**
   * The end of a stream: a model failure is recorded and reported, and
   * otherwise the streamed text is saved as a markdown artifact and reported
   * complete with its usage. The entry keeps its request, components and
   * creation time either way.
   */
  function Conclude(e: Execution, prompt: string, st: Stream, store: Store,
                    artifactId: string, t: DateTime, now: real): (end: Ending)
    ensures end.execution.request == e.request && end.execution.components == e.components
    ensures end.execution.createdAt == e.createdAt
    ensures st.error.Some? ==>
      && end.event == ErrorEvent(st.error.value) && end.store == store
      && end.execution.status == Errored && end.execution.error == st.error
      && end.execution.artifactId == e.artifactId
    ensures st.error.None? ==>
      && end.event == Complete(artifactId, UsageSummary(prompt, Concat(st.tokens)))
      && end.execution.status == Completed && end.execution.artifactId == Some(artifactId)
      && end.execution.error == e.error
      && GetArtifact(end.store, artifactId) == Success(NewMetadata(Concat(st.tokens), e.request.agentRole, "markdown", artifactId, t))
      && OthersUnchanged(store, end.store, ContentFileName(artifactId, t, "markdown"), MetaPath(artifactId))
  {
    match st.error
    case Some(message) =>
      Ending(e.(status := Errored, error := Some(message)), store, ErrorEvent(message))
    case None =>
      var content := Concat(st.tokens);
      var o := SaveArtifact(store, content, e.request.agentRole, "markdown", artifactId, t, now);
      assert o.result.Success?;
      SaveThenGet(store, content, e.request.agentRole, "markdown", artifactId, t, now);
      Ending(e.(status := Completed, artifactId := Some(o.result.value.artifactId)),
             o.store, Complete(o.result.value.artifactId, UsageSummary(prompt, content)))
  }

  /** The texts the model streams for a registered execution, empty chunks dropped. */
  function StreamedTokens(w: Wording, e: Execution, sdk: (string, real) -> Upstream): seq<string>
  {
    StreamGenerate(sdk(FullPromptOf(w, e.request), e.components.temperature)).tokens
  }

  /** A stream the client never reads changes nothing and sends nothing. */
  lemma UnreadStreamChangesNothing(w: Wording, reg: Registry, store: Store, executionId: string,
                                   sdk: (string, real) -> Upstream, artifactId: string, t: DateTime, now: real)
    requires executionId in reg
    ensures StreamAgentResponse(w, reg, store, executionId, sdk, artifactId, t, now, 0) == Success(Streamed(reg, store, []))
  {
  }

  /**
   * A client that stops while tokens are still coming has received a prefix
   * of the tokens; the execution stays streaming and no artifact is saved.
   * A stream restarted on a finished execution goes back to streaming.
   */
  lemma StoppedStreamSavesNothing(w: Wording, reg: Registry, store: Store, executionId: string,
                                  sdk: (string, real) -> Upstream, artifactId: string, t: DateTime, now: real, pulls: nat)
    requires executionId in reg
    requires 1 <= pulls <= |StreamedTokens(w, reg[executionId], sdk)|
    ensures var r := StreamAgentResponse(w, reg, store, executionId, sdk, artifactId, t, now, pulls).value;
      && r.store == store
      && r.registry[executionId] == reg[executionId].(status := Streaming)
      && r.events == TokenEvents(StreamedTokens(w, reg[executionId], sdk)[..pulls])
  {
    var tokens := StreamedTokens(w, reg[executionId], sdk);
    assert TokenEvents(tokens)[..pulls] == TokenEvents(tokens[..pulls]);
  }

  /**
   * A stream read to the end without a model failure sends every token in
   * order and then one completion event; the artifact it names holds exactly the text
   * the tokens spell out, which is everything the model produced, and the
   * usage is estimated from the prompt and that text.
   */
  lemma CompletedStreamSavesTokens(w: Wording, reg: Registry, store: Store, executionId: string,
                                   sdk: (string, real) -> Upstream, artifactId: string, t: DateTime, now: real, pulls: nat)
    requires executionId in reg
    requires var e := reg[executionId]; sdk(FullPromptOf(w, e.request), e.components.temperature).failure.None?
    requires pulls > |StreamedTokens(w, reg[executionId], sdk)|
    ensures var e := reg[executionId];
      var up := sdk(FullPromptOf(w, e.request), e.components.temperature);
      var r := StreamAgentResponse(w, reg, store, executionId, sdk, artifactId, t, now, pulls).value;
      && r.events == TokenEvents(StreamedTokens(w, e, sdk)) + [Complete(artifactId, UsageSummary(FullPromptOf(w, e.request), Concat(up.chunks)))]
      && r.events[|r.events| - 1] == Complete(artifactId, UsageSummary(FullPromptOf(w, e.request), Concat(up.chunks)))
      && Received(r.events) == Concat(up.chunks)
      && GetArtifact(r.store, artifactId).Success?
      && GetArtifact(r.store, artifactId).value.content == Received(r.events)
      && GetArtifact(r.store, artifactId).value.agentRole == e.request.agentRole
      && GetArtifact(r.store, artifactId).value.fileType == "markdown"
      && r.registry[executionId] == e.(status := Completed, artifactId := Some(artifactId))
      && OthersUnchanged(store, r.store, ContentFileName(artifactId, t, "markdown"), MetaPath(artifactId))
  {
    var e := reg[executionId];
    var tokens := StreamedTokens(w, e, sdk);
    var content := Concat(tokens);
    var r := StreamAgentResponse(w, reg, store, executionId, sdk, artifactId, t, now, pulls).value;
    var o := SaveArtifact(store, content, e.request.agentRole, "markdown", artifactId, t, now);
    assert "markdown" in FileTypes;
    SaveThenGet(store, content, e.request.agentRole, "markdown", artifactId, t, now);
    ReceivedTokens(tokens);
    ReceivedAppend(TokenEvents(tokens), [Complete(artifactId, UsageSummary(FullPromptOf(w, e.request), content))]);
    assert Received([Complete(artifactId, UsageSummary(FullPromptOf(w, e.request), content))]) == "";
  }

  /**
   * A model failure, once every token before it has been sent, ends the
   * stream: the client receives the tokens in order and then one error event
   * carrying the prefixed message. The execution records that message, no
   * artifact is saved, and no completion is sent.
   */
  lemma FailedStreamReportsError(w: Wording, reg: Registry, store: Store, executionId: string,
                                 sdk: (string, real) -> Upstream, artifactId: string, t: DateTime, now: real, pulls: nat)
    requires executionId in reg
    requires var e := reg[executionId]; sdk(FullPromptOf(w, e.request), e.components.temperature).failure.Some?
    requires pulls > |StreamedTokens(w, reg[executionId], sdk)|
    ensures var e := reg[executionId];
      var up := sdk(FullPromptOf(w, e.request), e.components.temperature);
      var r := StreamAgentResponse(w, reg, store, executionId, sdk, artifactId, t, now, pulls).value;
      && r.store == store
      && r.events == TokenEvents(StreamedTokens(w, e, sdk)) + [ErrorEvent(ApiError(up.failure.value))]
      && r.events[|r.events| - 1] == ErrorEvent(ApiError(up.failure.value))
      && (forall i :: 0 <= i < |r.events| ==> !r.events[i].Complete?)
      && r.registry[executionId] == e.(status := Errored, error := Some(ApiError(up.failure.value)))
  {
  }

  /** Streaming keeps every entry consistent. */
  lemma StreamPreservesConsistency(w: Wording, reg: Registry, store: Store, executionId: string,
                                   sdk: (string, real) -> Upstream, artifactId: string, t: DateTime, now: real, pulls: nat)
    requires ConsistentRegistry(w, reg)
    requires executionId in reg
    ensures ConsistentRegistry(w, StreamAgentResponse(w, reg, store, executionId, sdk, artifactId, t, now, pulls).value.registry)
  {
    var after := StreamAgentResponse(w, reg, store, executionId, sdk, artifactId, t, now, pulls).value.registry;
    var e, e' := reg[executionId], after[executionId];
    assert Consistent(w, e);
    if pulls > 0 && pulls > |StreamedTokens(w, e, sdk)| {
      var prompt := FullPromptOf(w, e.request);
      var st := StreamGenerate(sdk(prompt, e.components.temperature));
      assert e' == Conclude(e, prompt, st, store, artifactId, t, now).execution;
    }
    assert Consistent(w, e');
  }

  /** The prompt streamed for a consistent entry opens with the system prompt it shows. */
  lemma StreamedPromptIsShownPrompt(w: Wording, e: Execution)
    requires Consistent(w, e)
    ensures StartsWith(FullPromptOf(w, e.request), e.components.finalSystemPrompt)
    ensures EndsWith(FullPromptOf(w, e.request), QueryHeader + e.request.query + ResponseFooter)
  {
  }

  // ---------------------------------------------------------------------------
  // Listing

  /** What the listing shows of one execution. */
  datatype ExecutionSummary = ExecutionSummary(executionId: string, status: Status, createdAt: DateTime,
                                               agentRole: string, position: Position)

  function SummaryOf(id: string, e: Execution): ExecutionSummary
  {
    ExecutionSummary(id, e.status, e.createdAt, e.request.agentRole, e.request.position)
  }

  /** The registry's size and one summary per execution, each id exactly once. */
  method ListExecutions(reg: Registry) returns (total: nat, summaries: seq<ExecutionSummary>)
    ensures total == |reg| == |summaries|
    ensures forall i :: 0 <= i < |summaries| ==>
      summaries[i].executionId in reg && summaries[i] == SummaryOf(summaries[i].executionId, reg[summaries[i].executionId])
    ensures forall i, j :: 0 <= i < j < |summaries| ==> summaries[i].executionId != summaries[j].executionId
    ensures forall id :: id in reg ==> exists i :: 0 <= i < |summaries| && summaries[i].executionId == id
  {
    summaries := [];
    var remaining := reg.Keys;
    while remaining != {}
      invariant remaining <= reg.Keys
      invariant |summaries| + |remaining| == |reg|
      invariant forall i :: 0 <= i < |summaries| ==>
        summaries[i].executionId in reg - remaining && summaries[i] == SummaryOf(summaries[i].executionId, reg[summaries[i].executionId])
      invariant forall i, j :: 0 <= i < j < |summaries| ==> summaries[i].executionId != summaries[j].executionId
      invariant forall id :: id in reg && id !in remaining ==> exists i :: 0 <= i < |summaries| && summaries[i].executionId == id
      decreases remaining
    {
      var id :| id in remaining;
      var prev := summaries;
      summaries := prev + [SummaryOf(id, reg[id])];
      remaining := remaining - {id};
      forall x | x in reg && x !in remaining
        ensures exists i :: 0 <= i < |summaries| && summaries[i].executionId == x
      {
        if x == id {
          assert summaries[|prev|].executionId == x;
        } else {
          var i :| 0 <= i < |prev| && prev[i].executionId == x;
          assert summaries[i] == prev[i];
        }
      }
    }
    total := |summaries|;
  }

  // ---------------------------------------------------------------------------
  // Configuration endpoint

  /** An HTTP error answer: status code and detail. */
  datatype HttpError = HttpError(code: nat, detail: string)

  const MissingGoalDetail: string := "Missing 'goal' field"

  /** The endpoint's answer to what the generator returned: its failure text becomes a 500. */
  function ConfigAnswer(outcome: Result<AgentConfig, ConfigFailure>): Result<AgentConfig, HttpError>
  {
    match outcome
    case Success(config) => Success(config)
    case Failure(f) => Failure(HttpError(500, ConfigErrorPrefix + FailureMessage(f)))
  }

  /** What the generator's unbound JSON module reads as, once the endpoint has prefixed it. */
  const UnboundJsonDetail: string :=
    ConfigErrorPrefix + ("cannot access local variable '" + JsonModuleName + "' where it is not associated with a value")

  /**
   * The configuration endpoint as the code runs it, on the generator as
   * written. `instructions` is the architect text the prompt opens with
   * (`ArchitectInstructions` in the service); `goal` is the body's "goal"
   * field, absent or a string; `sdk` answers the prompt; `parse` decodes
   * JSON. A missing or empty goal is a 400. A failing model call surfaces as
   * the generator's unbound-name error, so the 500 names neither the model
   * nor its message.
   */
  function GenerateConfigEndpointAsWritten(instructions: string, goal: Option<string>, sdk: string -> Result<string, string>,
                                           parse: string -> Option<AgentConfig>): (r: Result<AgentConfig, HttpError>)
    ensures (goal.None? || goal == Some("")) ==> r == Failure(HttpError(400, MissingGoalDetail))
    ensures goal.Some? && goal.value != "" ==>
      var g := goal.value;
      var reply := sdk(ConfigPrompt(instructions, g));
      && (r.Success? <==> reply.Success?)
      && (r.Failure? ==> r.error == HttpError(500, UnboundJsonDetail))
      && (r.Success? ==> r.value == parse(CleanFences(reply.value)).GetOr(FallbackConfig(g)))
  {
    match goal
    case None => Failure(HttpError(400, MissingGoalDetail))
    case Some(g) =>
      if g == "" then Failure(HttpError(400, MissingGoalDetail))
      else ConfigAnswer(GenerateAgentConfigAsWritten(g, sdk(ConfigPrompt(instructions, g)), parse))
  }

  /**
   * The configuration endpoint on the corrected generator: a failing model
   * call is a 500 whose detail repeats the generator's own prefix before the
   * model's prefixed message.
   */
  function GenerateConfigEndpoint(instructions: string, goal: Option<string>, sdk: string -> Result<string, string>,
                                  parse: string -> Option<AgentConfig>): (r: Result<AgentConfig, HttpError>)
    ensures (goal.None? || goal == Some("")) ==> r == Failure(HttpError(400, MissingGoalDetail))
    ensures goal.Some? && goal.value != "" ==>
      var g := goal.value;
      var reply := sdk(ConfigPrompt(instructions, g));
      && (r.Success? <==> reply.Success?)
      && (r.Failure? ==> r.error == HttpError(500, ConfigErrorPrefix + (ConfigErrorPrefix + ApiError(reply.error))))
      && (r.Success? ==> r.value == parse(CleanFences(reply.value)).GetOr(FallbackConfig(g)))
  {
    match goal
    case None => Failure(HttpError(400, MissingGoalDetail))
    case Some(g) =>
      if g == "" then Failure(HttpError(400, MissingGoalDetail))
      else
        var reply := sdk(ConfigPrompt(instructions, g));
        var outcome := GenerateAgentConfig(g, reply, parse);
        assert reply.Failure? ==> FailureMessage(outcome.error) == ConfigErrorPrefix + ApiError(reply.error);
        ConfigAnswer(outcome)
  }

  /** The two endpoints answer alike except when the model call fails. */
  lemma ConfigEndpointsAgreeOnReply(instructions: string, goal: Option<string>, sdk: string -> Result<string, string>,
                                    parse: string -> Option<AgentConfig>)
    requires goal.Some? ==> sdk(ConfigPrompt(instructions, goal.value)).Success?
    ensures GenerateConfigEndpointAsWritten(instructions, goal, sdk, parse) == GenerateConfigEndpoint(instructions, goal, sdk, parse)
  {
    if goal.Some? && goal.value != "" {
      AgentConfigAgreesOnReply(goal.value, sdk(ConfigPrompt(instructions, goal.value)).value, parse);
    }
  }

  /**
   * As written, a failing model call gives the same 500 whatever the model
   * said, and that detail never carries the model's error prefix; the
   * corrected endpoint passes the model's message through.
   */
  lemma AsWrittenEndpointHidesModelError(instructions: string, goal: string, sdk: string -> Result<string, string>,
                                         parse: string -> Option<AgentConfig>)
    requires goal != "" && sdk(ConfigPrompt(instructions, goal)).Failure?
    ensures var detail := GenerateConfigEndpointAsWritten(instructions, Some(goal), sdk, parse).error.detail;
      && detail == UnboundJsonDetail
      && !StartsWith(detail, ConfigErrorPrefix + ApiErrorPrefix)
    ensures var detail := GenerateConfigEndpoint(instructions, Some(goal), sdk, parse).error.detail;
      && StartsWith(detail, ConfigErrorPrefix + ConfigErrorPrefix + ApiErrorPrefix)
      && EndsWith(detail, sdk(ConfigPrompt(instructions, goal)).error)
  {
    var detail := GenerateConfigEndpointAsWritten(instructions, Some(goal), sdk, parse).error.detail;
    assert detail[|ConfigErrorPrefix|] == 'c';
    assert (ConfigErrorPrefix + ApiErrorPrefix)[|ConfigErrorPrefix|] == 'G';
    var e := sdk(ConfigPrompt(instructions, goal)).error;
    ConcatParts(ConfigErrorPrefix + ConfigErrorPrefix + ApiErrorPrefix, e);
  }
}

=== FILE: artifact_manager.dfy ===
/**
 * File-based artifact storage. The storage directory is a map from file name
 * to file; saving an artifact writes its content file and a metadata file
 * named after the artifact id, reading and deleting go through the metadata
 * file, and listing orders metadata files by modification time.
 */
module ArtifactManager {
  import opened Wrappers
  import opened Text
  import opened Models
  import Utf8

  // ---------------------------------------------------------------------------
  // The storage directory

  /**
   * What a file holds: plain text, or a metadata record as the serializer
   * wrote it. A metadata file that holds plain text does not validate.
   */
  datatype FileData = Plain(text: string) | Record(meta: ArtifactMetadata)

  datatype StoredFile = StoredFile(data: FileData, mtime: real)

  /** The storage directory: file name to file. */
  type Store = map<string, StoredFile>

  /** The two ways a storage operation fails: a missing file, or metadata that does not validate. */
  datatype StoreError = FileMissing(path: string) | ValidationFailed(path: string) | IsADirectory(path: string)

  /** The directory after an operation, and what the operation returned or raised. */
  datatype Outcome<T> = Outcome(store: Store, result: Result<T, StoreError>)

  /** Files other than `a` and `b` are the same after as before. */
  predicate OthersUnchanged(before: Store, after: Store, a: string, b: string)
  {
    && (forall p :: p in before && p != a && p != b ==> p in after && after[p] == before[p])
    && (forall p :: p in after && p != a && p != b ==> p in before)
  }

  // ---------------------------------------------------------------------------
  // File names

  /** The extension of a content file; a type outside the table falls back to "txt". */
  function Extension(fileType: string): (e: string)
    ensures fileType == "markdown" ==> e == "md"
    ensures fileType == "json" ==> e == "json"
    ensures fileType !in {"markdown", "json"} ==> e == "txt"
  {
    if fileType == "markdown" then "md"
    else if fileType == "json" then "json"
    else "txt"
  }

  /** On the recorded file types, the extension determines the type. */
  lemma ExtensionDistinguishesTypes(t: string, t': string)
    requires t in FileTypes && t' in FileTypes && Extension(t) == Extension(t')
    ensures t == t'
  {
  }

  /** A timestamp as `YYYYmmdd_HHMMSS`. */
  function Stamp(t: DateTime): (s: string)
    ensures |s| == 15 && s[8] == '_'
  {
    var date := Digits(t.year, 4) + Digits(t.month, 2) + Digits(t.day, 2);
    var time := Digits(t.hour, 2) + Digits(t.minute, 2) + Digits(t.second, 2);
    date + "_" + time
  }

  predicate AllDigits(s: string)
  {
    forall k :: 0 <= k < |s| ==> IsDigit(s[k])
  }

  /**
   * The numbers in three adjacent digit groups, the first `w1` characters
   * long, the second `w2`, the third the rest.
   */
  function ReadGroups(s: string, w1: nat, w2: nat): Option<(nat, nat, nat)>
  {
    if w1 + w2 > |s| then None
    else
      var g1, g2, g3 := s[..w1], s[w1..w1 + w2], s[w1 + w2..];
      if AllDigits(g1) && AllDigits(g2) && AllDigits(g3) then
        Some((DigitsValue(g1), DigitsValue(g2), DigitsValue(g3)))
      else
        None
  }

  /** The time a `YYYYmmdd_HHMMSS` text denotes. */
  function ParseStamp(s: string): Option<DateTime>
  {
    if |s| != 15 || s[8] != '_' then None
    else
      match (ReadGroups(s[..8], 4, 2), ReadGroups(s[9..], 2, 2))
      case (Some(d), Some(t)) => Some(DateTime(d.0, d.1, d.2, t.0, t.1, t.2))
      case _ => None
  }

  lemma DigitsExact(n: nat, w: nat)
    requires n < Pow10(w)
    ensures DigitsValue(Digits(n, w)) == n
  {
    DigitsRoundTrip(n, w);
  }

  lemma ReadGroupsOf(a: string, b: string, c: string)
    requires AllDigits(a) && AllDigits(b) && AllDigits(c)
    ensures ReadGroups(a + b + c, |a|, |b|) == Some((DigitsValue(a), DigitsValue(b), DigitsValue(c)))
  {
    var s := a + b + c;
    assert s[..|a|] == a;
    assert s[|a|..|a| + |b|] == b;
    assert s[|a| + |b|..] == c;
  }

  /** The time in a content file's name is its creation time, exactly. */
  lemma StampRoundTrip(t: DateTime)
    requires ValidDateTime(t)
    ensures ParseStamp(Stamp(t)) == Some(t)
  {
    var y, mo, d := Digits(t.year, 4), Digits(t.month, 2), Digits(t.day, 2);
    var h, mi, se := Digits(t.hour, 2), Digits(t.minute, 2), Digits(t.second, 2);
    var s := Stamp(t);
    assert s[..8] == y + mo + d && s[9..] == h + mi + se;
    ReadGroupsOf(y, mo, d);
    ReadGroupsOf(h, mi, se);
    assert Pow10(2) == 100 && Pow10(4) == 10000;
    DigitsExact(t.year, 4);
    DigitsExact(t.month, 2);
    DigitsExact(t.day, 2);
    DigitsExact(t.hour, 2);
    DigitsExact(t.minute, 2);
    DigitsExact(t.second, 2);
  }

  /** The content file of an artifact: id, creation time and extension. */
  function ContentFileName(artifactId: string, t: DateTime, fileType: string): string
  {
    artifactId + "_" + Stamp(t) + "." + Extension(fileType)
  }

  const MetaSuffix: string := "_meta.json"

  /** The metadata file of an artifact. */
  function MetaPath(artifactId: string): (p: string)
    ensures StartsWith(p, artifactId) && EndsWith(p, MetaSuffix)
    ensures |p| == |artifactId| + |MetaSuffix|
  {
    ConcatParts(artifactId, MetaSuffix);
    artifactId + MetaSuffix
  }

  /** The files listing treats as metadata files. */
  predicate IsMetaPath(name: string)
  {
    EndsWith(name, MetaSuffix)
  }

  /** Different artifacts have different metadata files. */
  lemma MetaPathInjective(a: string, b: string)
    requires MetaPath(a) == MetaPath(b)
    ensures a == b
  {
    assert a == MetaPath(a)[..|a|];
    assert b == MetaPath(b)[..|b|];
  }

  /**
   * A content file is never taken for a metadata file: six characters from
   * its end stands a digit of the time, where every metadata name has an `a`.
   */
  lemma ContentNameNotMeta(artifactId: string, t: DateTime, fileType: string)
    ensures !IsMetaPath(ContentFileName(artifactId, t, fileType))
  {
    var name := ContentFileName(artifactId, t, fileType);
    var stamp, ext := Stamp(t), Extension(fileType);
    assert name == (artifactId + "_") + stamp + ("." + ext);
    var k := |name| - 6;
    assert name[k] == stamp[|stamp| - (6 - |ext| - 1)];
    assert MetaSuffix[|MetaSuffix| - 6] == 'a';
    assert name[k] == name[|name| - |MetaSuffix|..][|MetaSuffix| - 6];
  }

  // ---------------------------------------------------------------------------
  // Saving

  /** The metadata a save records: the content, its UTF-8 size and its creation time. */
  function NewMetadata(content: string, agentRole: string, fileType: string, artifactId: string, t: DateTime): ArtifactMetadata
  {
    ArtifactMetadata(artifactId, ContentFileName(artifactId, t, fileType), content, t,
                     fileType, |Utf8.Encode(content)|, agentRole)
  }

  /**
   * Saving as the code does it: the content file is written first and the
   * metadata is validated afterwards, so a type the metadata does not accept
   * raises with the content file already on disk.
   */
  function SaveArtifactAsWritten(store: Store, content: string, agentRole: string, fileType: string,
                                 artifactId: string, t: DateTime, now: real): (o: Outcome<ArtifactMetadata>)
    ensures o.result.Success? <==> fileType in FileTypes
    ensures ContentFileName(artifactId, t, fileType) in o.store
  {
    var meta := NewMetadata(content, agentRole, fileType, artifactId, t);
    var written := store[meta.filename := StoredFile(Plain(content), now)];
    if !ValidArtifactMetadata(meta) then
      Outcome(written, Failure(ValidationFailed(MetaPath(artifactId))))
    else
      Outcome(written[MetaPath(artifactId) := StoredFile(Record(meta), now)], Success(meta))
  }

  /**
   * A save with a file type outside the metadata's choices raises, yet
   * leaves a content file no metadata file points to.
   */
  lemma OrphanContentFile(store: Store, content: string, agentRole: string, fileType: string,
                          artifactId: string, t: DateTime, now: real)
    requires fileType !in FileTypes
    requires ContentFileName(artifactId, t, fileType) !in store
    ensures var o := SaveArtifactAsWritten(store, content, agentRole, fileType, artifactId, t, now);
      && o.result.Failure?
      && o.store == store[ContentFileName(artifactId, t, fileType) := StoredFile(Plain(content), now)]
      && o.store != store
  {
  }

  /**
   * Saving an artifact, validating its metadata before anything is written:
   * a rejected save leaves the directory unchanged; an accepted one adds the
   * content file and the metadata file and touches nothing else.
   */
  function SaveArtifact(store: Store, content: string, agentRole: string, fileType: string,
                        artifactId: string, t: DateTime, now: real): (o: Outcome<ArtifactMetadata>)
    ensures o.result.Success? <==> fileType in FileTypes
    ensures o.result.Failure? ==> o.store == store
    ensures o.result.Success? ==>
      var m := o.result.value;
      && m.artifactId == artifactId && m.content == content && m.createdAt == t
      && m.fileType == fileType && m.agentRole == agentRole
      && m.filename == ContentFileName(artifactId, t, fileType)
      && m.sizeBytes == |Utf8.Encode(content)|
      && ValidArtifactMetadata(m)
      && m.filename in o.store && o.store[m.filename] == StoredFile(Plain(content), now)
      && MetaPath(artifactId) in o.store && o.store[MetaPath(artifactId)] == StoredFile(Record(m), now)
      && OthersUnchanged(store, o.store, m.filename, MetaPath(artifactId))
  {
    var meta := NewMetadata(content, agentRole, fileType, artifactId, t);
    if !ValidArtifactMetadata(meta) then
      Outcome(store, Failure(ValidationFailed(MetaPath(artifactId))))
    else
      ContentNameNotMeta(artifactId, t, fileType);
      var written := store[meta.filename := StoredFile(Plain(content), now)];
      Outcome(written[MetaPath(artifactId) := StoredFile(Record(meta), now)], Success(meta))
  }

  /** Where the file type is accepted, the corrected save does what the written one does. */
  lemma SaveAgreesOnValidTypes(store: Store, content: string, agentRole: string, fileType: string,
                               artifactId: string, t: DateTime, now: real)
    requires fileType in FileTypes
    ensures SaveArtifact(store, content, agentRole, fileType, artifactId, t, now)
         == SaveArtifactAsWritten(store, content, agentRole, fileType, artifactId, t, now)
  {
  }

  // ---------------------------------------------------------------------------
  // Reading

  /** Validation of one metadata file. */
  function ReadMetadata(store: Store, path: string): (r: Result<ArtifactMetadata, StoreError>)
    requires path in store
    ensures r.Success? <==> store[path].data.Record? && ValidArtifactMetadata(store[path].data.meta)
    ensures r.Success? ==> r.value == store[path].data.meta
    ensures r.Failure? ==> r.error == ValidationFailed(path)
  {
    match store[path].data
    case Record(m) => if ValidArtifactMetadata(m) then Success(m) else Failure(ValidationFailed(path))
    case Plain(_) => Failure(ValidationFailed(path))
  }

  /** The artifact stored under an id: missing metadata file, invalid metadata, or the record. */
  function GetArtifact(store: Store, artifactId: string): (r: Result<ArtifactMetadata, StoreError>)
    ensures MetaPath(artifactId) !in store <==> r == Failure(FileMissing(MetaPath(artifactId)))
    ensures MetaPath(artifactId) in store ==> r == ReadMetadata(store, MetaPath(artifactId))
  {
    var path := MetaPath(artifactId);
    if path !in store then Failure(FileMissing(path)) else ReadMetadata(store, path)
  }

  /** A saved artifact reads back exactly as the save returned it. */
  lemma SaveThenGet(store: Store, content: string, agentRole: string, fileType: string,
                    artifactId: string, t: DateTime, now: real)
    requires fileType in FileTypes
    ensures var o := SaveArtifact(store, content, agentRole, fileType, artifactId, t, now);
      GetArtifact(o.store, artifactId) == o.result
  {
  }

  /** Saving one artifact does not change what any other id reads as. */
  lemma SavePreservesOtherArtifacts(store: Store, content: string, agentRole: string, fileType: string,
                                    artifactId: string, t: DateTime, now: real, other: string)
    requires other != artifactId
    ensures GetArtifact(SaveArtifact(store, content, agentRole, fileType, artifactId, t, now).store, other)
         == GetArtifact(store, other)
  {
    var o := SaveArtifact(store, content, agentRole, fileType, artifactId, t, now);
    if o.result.Success? {
      ContentNameNotMeta(artifactId, t, fileType);
      if MetaPath(other) == MetaPath(artifactId) {
        MetaPathInjective(other, artifactId);
      }
      assert MetaPath(other) != ContentFileName(artifactId, t, fileType);
    }
  }

  // ---------------------------------------------------------------------------
  // Listing

  /** The metadata files in the directory. */
  function MetaFiles(store: Store): (s: set<string>)
    ensures forall p :: p in s <==> p in store && IsMetaPath(p)
  {
    set p | p in store && IsMetaPath(p)
  }

  /** The length of `xs[:limit]` for a list of `n` elements (a negative limit counts from the end). */
  function SliceCount(n: nat, limit: int): (k: nat)
    ensures k <= n
    ensures 0 <= limit ==> k == if limit < n then limit else n
    ensures limit < 0 ==> k == if n + limit > 0 then n + limit else 0
  {
    if limit >= 0 then (if limit < n then limit else n)
    else if n + limit > 0 then n + limit else 0
  }

  /** A non-empty set of files has one that was modified last. */
  lemma LatestExists(s: set<string>, store: Store)
    requires s != {} && s <= store.Keys
    ensures exists p :: p in s && forall q :: q in s ==> store[q].mtime <= store[p].mtime
  {
    var x :| x in s;
    if s != {x} {
      LatestExists(s - {x}, store);
      var y :| y in s - {x} && forall q :: q in s - {x} ==> store[q].mtime <= store[y].mtime;
      if store[x].mtime <= store[y].mtime {
        assert forall q :: q in s ==> store[q].mtime <= store[y].mtime;
      } else {
        assert forall q :: q in s ==> store[q].mtime <= store[x].mtime;
      }
    } else {
      assert forall q :: q in s ==> q == x;
    }
  }

  /**
   * `paths` are the files of `all` taken so far, most recent first, each
   * once, and `rest` the ones not yet taken, none more recent than any
   * taken.
   */
  predicate Selecting(store: Store, all: set<string>, rest: set<string>, paths: seq<string>)
    requires all <= store.Keys
  {
    && rest <= all && |rest| + |paths| == |all|
    && (forall i :: 0 <= i < |paths| ==> paths[i] in all && paths[i] !in rest)
    && (forall q :: q in all ==> q in rest || q in paths)
    && (forall i, j :: 0 <= i < j < |paths| ==> paths[i] != paths[j])
    && (forall i, j :: 0 <= i < j < |paths| ==> store[paths[j]].mtime <= store[paths[i]].mtime)
    && (forall q, i :: q in rest && 0 <= i < |paths| ==> store[q].mtime <= store[paths[i]].mtime)
  }

  /** Taking a most recent file of the rest keeps the selection in order. */
  lemma SelectStep(store: Store, all: set<string>, rest: set<string>, paths: seq<string>, p: string)
    requires all <= store.Keys && Selecting(store, all, rest, paths)
    requires p in rest && forall q :: q in rest ==> store[q].mtime <= store[p].mtime
    ensures Selecting(store, all, rest - {p}, paths + [p])
  {
    var paths', rest' := paths + [p], rest - {p};
    assert forall i :: 0 <= i < |paths| ==> paths'[i] == paths[i];
    forall q | q in all ensures q in rest' || q in paths' {
      if q == p {
        assert paths'[|paths|] == p;
      } else if q !in rest {
        assert q in paths;
        var i :| 0 <= i < |paths| && paths[i] == q;
        assert paths'[i] == q;
      }
    }
  }

  /**
   * The metadata files a listing reads, most recently modified first: as
   * many as `[:limit]` keeps, none twice, and none left out that is more
   * recent than one taken.
   */
  method SelectRecent(store: Store, limit: int) returns (paths: seq<string>)
    ensures |paths| == SliceCount(|MetaFiles(store)|, limit)
    ensures forall i :: 0 <= i < |paths| ==> paths[i] in MetaFiles(store)
    ensures forall i, j :: 0 <= i < j < |paths| ==> paths[i] != paths[j]
    ensures forall i, j :: 0 <= i < j < |paths| ==> store[paths[j]].mtime <= store[paths[i]].mtime
    ensures forall q, i :: q in MetaFiles(store) && q !in paths && 0 <= i < |paths| ==>
      store[q].mtime <= store[paths[i]].mtime
  {
    var all := MetaFiles(store);
    var rest := all;
    var k := SliceCount(|all|, limit);
    paths := [];
    while |paths| < k
      invariant |paths| <= k <= |all|
      invariant Selecting(store, all, rest, paths)
    {
      LatestExists(rest, store);
      var p :| p in rest && forall q :: q in rest ==> store[q].mtime <= store[p].mtime;
      SelectStep(store, all, rest, paths, p);
      paths := paths + [p];
      rest := rest - {p};
    }
  }

  /** Reads the metadata files in order; the first that does not validate makes the whole read fail. */
  function ReadAll(store: Store, paths: seq<string>): (r: Result<seq<ArtifactMetadata>, StoreError>)
    requires forall i :: 0 <= i < |paths| ==> paths[i] in store
    ensures r.Success? <==> forall i :: 0 <= i < |paths| ==> ReadMetadata(store, paths[i]).Success?
    ensures r.Success? ==> |r.value| == |paths|
    ensures r.Success? ==> forall i :: 0 <= i < |paths| ==> r.value[i] == store[paths[i]].data.meta
  {
    if |paths| == 0 then Success([])
    else
      match ReadMetadata(store, paths[0])
      case Failure(e) => Failure(e)
      case Success(m) =>
        match ReadAll(store, paths[1..])
        case Failure(e) => Failure(e)
        case Success(ms) => Success([m] + ms)
  }

  /**
   * The artifacts, most recent first, at most as many as `[:limit]` keeps;
   * any metadata file that does not validate fails the whole listing.
   */
  method ListArtifacts(store: Store, limit: int) returns (paths: seq<string>, r: Result<seq<ArtifactMetadata>, StoreError>)
    ensures |paths| == SliceCount(|MetaFiles(store)|, limit)
    ensures forall i :: 0 <= i < |paths| ==> paths[i] in store && IsMetaPath(paths[i])
    ensures forall i, j :: 0 <= i < j < |paths| ==> paths[i] != paths[j]
    ensures forall q, i :: q in MetaFiles(store) && q !in paths && 0 <= i < |paths| ==>
      store[q].mtime <= store[paths[i]].mtime
    ensures r.Success? <==> forall i :: 0 <= i < |paths| ==> ReadMetadata(store, paths[i]).Success?
    ensures forall i, j :: 0 <= i < j < |paths| ==> store[paths[j]].mtime <= store[paths[i]].mtime
    ensures r.Success? ==> |r.value| == |paths|
    ensures r.Success? ==> forall i :: 0 <= i < |paths| ==> r.value[i] == store[paths[i]].data.meta
  {
    paths := SelectRecent(store, limit);
    r := ReadAll(store, paths);
  }

  // ---------------------------------------------------------------------------
  // Deleting

  /**
   * Content file names that, joined to the storage directory, name a
   * directory rather than a file: the storage directory itself or its
   * parent. Such a path exists, and unlinking it raises.
   */
  predicate NamesDirectory(name: string)
  {
    name == "" || name == "." || name == ".."
  }

  /**
   * Deletes an artifact: `false` when its metadata file is missing; the
   * metadata is validated first; the content file the metadata names is
   * removed if present, which raises when the name denotes a directory,
   * then the metadata file, which raises if it is gone by then (a record
   * naming its own metadata file).
   */
  function DeleteArtifact(store: Store, artifactId: string): (o: Outcome<bool>)
    ensures o.result == Success(false) <==> MetaPath(artifactId) !in store
    ensures o.result == Success(false) ==> o.store == store
    ensures o.result.Failure? && MetaPath(artifactId) in store && ReadMetadata(store, MetaPath(artifactId)).Failure? ==>
      o.store == store
    ensures MetaPath(artifactId) in store && ReadMetadata(store, MetaPath(artifactId)).Success? ==>
      var name := store[MetaPath(artifactId)].data.meta.filename;
      NamesDirectory(name) ==> o == Outcome(store, Failure(IsADirectory(name)))
    ensures o.result == Success(true) ==>
      && MetaPath(artifactId) in store
      && ReadMetadata(store, MetaPath(artifactId)).Success?
      && var name := store[MetaPath(artifactId)].data.meta.filename;
      && name != MetaPath(artifactId) && !NamesDirectory(name)
      && MetaPath(artifactId) !in o.store && name !in o.store
      && OthersUnchanged(store, o.store, name, MetaPath(artifactId))
  {
    var path := MetaPath(artifactId);
    if path !in store then Outcome(store, Success(false))
    else
      match ReadMetadata(store, path)
      case Failure(e) => Outcome(store, Failure(e))
      case Success(m) =>
        if NamesDirectory(m.filename) then Outcome(store, Failure(IsADirectory(m.filename)))
        else
        var cleared := if m.filename in store then store - {m.filename} else store;
        if path !in cleared then Outcome(cleared, Failure(FileMissing(path)))
        else Outcome(cleared - {path}, Success(true))
  }

  /**
   * Deleting a valid artifact fails only when its record names, as its
   * content, its own metadata file or a directory.
   */
  lemma DeleteFailsOnlyOnBadReference(store: Store, artifactId: string)
    requires MetaPath(artifactId) in store && ReadMetadata(store, MetaPath(artifactId)).Success?
    ensures var name := store[MetaPath(artifactId)].data.meta.filename;
      DeleteArtifact(store, artifactId).result.Failure? <==> name == MetaPath(artifactId) || NamesDirectory(name)
  {
  }

  /** After a delete that reported success, the artifact is gone. */
  lemma GetAfterDelete(store: Store, artifactId: string)
    requires DeleteArtifact(store, artifactId).result == Success(true)
    ensures GetArtifact(DeleteArtifact(store, artifactId).store, artifactId) == Failure(FileMissing(MetaPath(artifactId)))
  {
  }

  /** Saving into a directory without the artifact's files and deleting again restores the directory. */
  lemma SaveDeleteRoundTrip(store: Store, content: string, agentRole: string, fileType: string,
                            artifactId: string, t: DateTime, now: real)
    requires fileType in FileTypes
    requires ContentFileName(artifactId, t, fileType) !in store && MetaPath(artifactId) !in store
    ensures var saved := SaveArtifact(store, content, agentRole, fileType, artifactId, t, now).store;
      DeleteArtifact(saved, artifactId) == Outcome(store, Success(true))
  {
    var saved := SaveArtifact(store, content, agentRole, fileType, artifactId, t, now).store;
    var o := DeleteArtifact(saved, artifactId);
    ContentNameNotMeta(artifactId, t, fileType);
    assert o.result == Success(true);
    assert o.store == store;
  }
}

=== FILE: gemini_client.dfy ===
/**
 * The client side of the language model: the streamed chunks the service
 * forwards, the message an SDK failure is reported with, and the cleanup and
 * fallback applied to a generated agent configuration. The SDK itself is
 * outside the model; what it delivers is a parameter.
 */
module GeminiClient {
  import opened Wrappers
  import opened Text
  import Models

  /** Every SDK failure is re-raised with this prefix before the original message. */
  const ApiErrorPrefix: string := "Gemini API error: "

  /** The message an SDK failure is re-raised with. */
  function ApiError(message: string): (e: string)
    ensures StartsWith(e, ApiErrorPrefix) && EndsWith(e, message)
    ensures |e| == |ApiErrorPrefix| + |message|
  {
    ConcatParts(ApiErrorPrefix, message);
    ApiErrorPrefix + message
  }

  /** The original message is recoverable from the re-raised one. */
  lemma ApiErrorInjective(m: string, m': string)
    requires ApiError(m) == ApiError(m')
    ensures m == m'
  {
    assert m == ApiError(m)[|ApiErrorPrefix|..];
    assert m' == ApiError(m')[|ApiErrorPrefix|..];
  }

  // ---------------------------------------------------------------------------
  // Streaming

  /** What the SDK delivers for one streamed request: its chunks' texts, then possibly a failure. */
  datatype Upstream = Upstream(chunks: seq<string>, failure: Option<string>)

  /** The chunks whose text is not empty, in arrival order. */
  function NonEmptyChunks(chunks: seq<string>): (r: seq<string>)
    ensures |r| <= |chunks|
    ensures forall i :: 0 <= i < |r| ==> r[i] != ""
    ensures Concat(r) == Concat(chunks)
  {
    if |chunks| == 0 then []
    else if chunks[0] == "" then NonEmptyChunks(chunks[1..])
    else [chunks[0]] + NonEmptyChunks(chunks[1..])
  }

  /** `sub` is `s` with some elements left out, the rest in their order. */
  predicate IsSubsequence<T(==)>(sub: seq<T>, s: seq<T>)
  {
    if |sub| == 0 then true
    else if |s| == 0 then false
    else if sub[0] == s[0] then IsSubsequence(sub[1..], s[1..])
    else IsSubsequence(sub, s[1..])
  }

  /**
   * Filtering keeps the non-empty chunks in their order and drops only
   * empty ones: the result is a subsequence of the chunks, and chunks that
   * are all non-empty pass unchanged.
   */
  lemma {:induction false} NonEmptyChunksKeepsOrder(chunks: seq<string>)
    ensures IsSubsequence(NonEmptyChunks(chunks), chunks)
    ensures (forall i :: 0 <= i < |chunks| ==> chunks[i] != "") ==> NonEmptyChunks(chunks) == chunks
  {
    if |chunks| > 0 {
      NonEmptyChunksKeepsOrder(chunks[1..]);
      var r := NonEmptyChunks(chunks);
      if chunks[0] != "" {
        assert r[0] == chunks[0] && r[1..] == NonEmptyChunks(chunks[1..]);
      } else if |r| > 0 {
        assert r[0] != chunks[0];
      }
    }
  }

  /** What the service receives from one streamed generation. */
  datatype Stream = Stream(tokens: seq<string>, error: Option<string>)

  /**
   * Streamed generation: the non-empty chunks are passed on as they
   * arrive, and an SDK failure (possibly after some chunks) is re-raised
   * with the API error prefix.
   */
  function StreamGenerate(up: Upstream): (st: Stream)
    ensures Concat(st.tokens) == Concat(up.chunks)
    ensures forall i :: 0 <= i < |st.tokens| ==> st.tokens[i] != ""
    ensures st.error.Some? <==> up.failure.Some?
    ensures up.failure.Some? ==> st.error == Some(ApiError(up.failure.value))
    ensures IsSubsequence(st.tokens, up.chunks)
    ensures st.tokens == NonEmptyChunks(up.chunks)
  {
    NonEmptyChunksKeepsOrder(up.chunks);
    Stream(NonEmptyChunks(up.chunks),
           match up.failure case None => None case Some(m) => Some(ApiError(m)))
  }

  /** Non-streamed generation: the whole text, or the failure re-raised with the prefix. */
  function Generate(reply: Result<string, string>): (r: Result<string, string>)
    ensures r.Success? <==> reply.Success?
    ensures reply.Success? ==> r.value == reply.value
    ensures reply.Failure? ==> StartsWith(r.error, ApiErrorPrefix) && r.error[|ApiErrorPrefix|..] == reply.error
  {
    match reply
    case Success(text) => Success(text)
    case Failure(m) => Failure(ApiError(m))
  }

  // ---------------------------------------------------------------------------
  // Code-fence cleanup

  const Fence: string := "```"
  const JsonFence: string := Fence + "json"

  /**
   * The text handed to the JSON parser: stripped, a leading "```json" and
   * then a leading "```" removed, a trailing "```" removed, stripped again.
   */
  function CleanFences(raw: string): (r: string)
    ensures NoEdgeSpace(r)
    ensures IsSliceOf(r, raw)
  {
    var s0 := Strip(raw);
    var s1 := DropPrefix(s0, JsonFence);
    var s2 := DropPrefix(s1, Fence);
    var s3 := DropSuffix(s2, Fence);
    SliceOfSlice(s1, s0, raw);
    SliceOfSlice(s2, s1, raw);
    SliceOfSlice(s3, s2, raw);
    SliceOfSlice(Strip(s3), s3, raw);
    Strip(s3)
  }

  /** A reply without fences is only stripped. */
  lemma CleanFencesUnfenced(raw: string)
    requires !StartsWith(Strip(raw), Fence) && !EndsWith(Strip(raw), Fence)
    ensures CleanFences(raw) == Strip(raw)
  {
    var s0 := Strip(raw);
    if StartsWith(s0, JsonFence) {
      StartsWithLonger(s0, Fence, "json");
    }
    StripIdempotent(raw);
  }

  /** A body wrapped in a "```json" or a bare "```" fence comes out as the body. */
  lemma CleanFencesFenced(tag: string, body: string)
    requires tag == "json" || tag == ""
    requires NoEdgeSpace(body)
    ensures CleanFences(Fence + tag + ("\n" + body + "\n") + Fence) == body
  {
    var inner := "\n" + body + "\n";
    var raw := Fence + tag + inner + Fence;
    StripFenced(tag, inner);
    OpeningFenceDropped(tag, inner);
    ClosingFenceDropped(body);
    var s1 := DropPrefix(Strip(raw), JsonFence);
    if tag == "json" {
      assert s1 == "\n" + body + "\n" + Fence;
    } else {
      assert s1 == Fence + "" + inner + Fence;
    }
    assert CleanFences(raw) == Strip(DropSuffix(DropPrefix(s1, Fence), Fence));
  }

  /**
   * The two opening checks run one after the other, so a json fence directly
   * followed by a bare fence loses both: "```json```x```" cleans to "x".
   */
  lemma CleanFencesDoubleOpening(body: string)
    requires NoEdgeSpace(body)
    ensures CleanFences(JsonFence + (Fence + (body + Fence))) == body
  {
    var raw := JsonFence + (Fence + (body + Fence));
    assert raw[|raw| - 1] == '`';
    StripBackticked(raw);
    DoubleOpeningDropped(body);
    StripKeepsStripped(body);
    assert CleanFences(raw) == Strip(DropSuffix(DropPrefix(DropPrefix(raw, JsonFence), Fence), Fence));
  }

  /** A text without edge whitespace is its own strip. */
  lemma StripKeepsStripped(body: string)
    requires NoEdgeSpace(body)
    ensures Strip(body) == body
  {
    assert "" + body + "" == body;
    StripPadded("", body, "");
  }

  /** Both opening fences and the closing fence come off, in turn. */
  lemma DoubleOpeningDropped(body: string)
    ensures DropSuffix(DropPrefix(DropPrefix(JsonFence + (Fence + (body + Fence)), JsonFence), Fence), Fence) == body
  {
    ConcatParts(JsonFence, Fence + (body + Fence));
    ConcatParts(Fence, body + Fence);
    ConcatParts(body, Fence);
  }

  /** After the first strip, the opening fence and its tag come off. */
  lemma OpeningFenceDropped(tag: string, inner: string)
    requires tag == "json" || tag == ""
    requires |inner| > 0 && inner[0] == '\n'
    ensures DropPrefix(Fence + tag + inner + Fence, JsonFence) == (if tag == "json" then inner + Fence else Fence + tag + inner + Fence)
  {
    var raw := Fence + tag + inner + Fence;
    if tag == "json" {
      ConcatParts(JsonFence, inner + Fence);
      assert raw == JsonFence + (inner + Fence);
    } else {
      assert !StartsWith(raw, JsonFence) by { assert raw[3] == '\n'; }
    }
  }

  /** What is left of a fenced body after the opening fence is the body with its closing fence. */
  lemma ClosingFenceDropped(body: string)
    requires NoEdgeSpace(body)
    ensures Strip(DropSuffix(DropPrefix("\n" + body + "\n" + Fence, Fence), Fence)) == body
    ensures Strip(DropSuffix(DropPrefix(Fence + "" + ("\n" + body + "\n") + Fence, Fence), Fence)) == body
  {
    var inner := "\n" + body + "\n";
    assert Fence + "" == Fence;
    assert !StartsWith(inner + Fence, Fence) by { assert (inner + Fence)[0] == '\n'; }
    ConcatParts(Fence, inner + Fence);
    assert Fence + inner + Fence == Fence + (inner + Fence);
    ConcatParts(inner, Fence);
    assert DropSuffix(inner + Fence, Fence) == inner;
    StripPadded("\n", body, "\n");
  }

  /** A text that opens and closes with a backtick has no whitespace at its ends: stripping keeps it whole. */
  lemma StripBackticked(s: string)
    requires |s| > 0 && s[0] == '`' && s[|s| - 1] == '`'
    ensures Strip(s) == s
  {
    assert "" + s + "" == s;
    StripPadded("", s, "");
  }

  /** A fenced reply has no whitespace at its ends, so the first strip keeps it whole. */
  lemma StripFenced(tag: string, inner: string)
    ensures Strip(Fence + tag + inner + Fence) == Fence + tag + inner + Fence
  {
    var raw := Fence + tag + inner + Fence;
    assert raw[0] == '`' && raw[|raw| - 1] == '`';
    assert "" + raw + "" == raw;
    StripPadded("", raw, "");
  }

  // ---------------------------------------------------------------------------
  // Agent configuration

  /** One agent of a generated team. */
  datatype AgentSpec = AgentSpec(id: string, role: string, name: string, x: real, y: real)

  /** A generated team and the query it is suggested to run. */
  datatype AgentConfig = AgentConfig(agents: seq<AgentSpec>, suggestedQuery: string)

  /** The configuration returned when the reply is not valid JSON: one analyst at the pad's centre. */
  function FallbackConfig(goal: string): (c: AgentConfig)
    ensures |c.agents| == 1 && c.suggestedQuery == goal
    ensures c.agents[0] == AgentSpec("agent-1", "analyst", "General Agent", 0.5, 0.5)
    ensures c.agents[0].role in Models.Roles
    ensures 0.0 <= c.agents[0].x <= 1.0 && 0.0 <= c.agents[0].y <= 1.0
  {
    AgentConfig([AgentSpec("agent-1", "analyst", "General Agent", 0.5, 0.5)], goal)
  }

  /** Every failure of the config generator is re-raised with this prefix. */
  const ConfigErrorPrefix: string := "Failed to generate agent config: "

  /** How generating a configuration fails. */
  datatype ConfigFailure =
    | Raised(message: string)        // the wrapped exception the generator means to raise
    | UnboundLocal(name: string)     // a local name read before it was bound

  /** The local module name the generator's handler refers to. */
  const JsonModuleName: string := "json"

  /**
   * Configuration generation as the code does it. The JSON module is
   * imported inside the protected block, which makes its name local to the
   * function; when the generation call fails before that import has run,
   * evaluating the handler's exception class reads the unbound name.
   * `parse` is the JSON decoder: `None` for text that is not valid JSON.
   */
  function GenerateAgentConfigAsWritten(goal: string, reply: Result<string, string>,
                                        parse: string -> Option<AgentConfig>): (r: Result<AgentConfig, ConfigFailure>)
    ensures reply.Failure? ==> r == Failure(UnboundLocal(JsonModuleName))
    ensures reply.Success? ==> r.Success?
  {
    match Generate(reply)
    case Failure(_) => Failure(UnboundLocal(JsonModuleName))
    case Success(text) =>
      match parse(CleanFences(text))
      case None => Success(FallbackConfig(goal))
      case Some(config) => Success(config)
  }

  /** A failed generation call never reaches the intended wrapped message. */
  lemma ApiFailureEscapesWrapper(goal: string, message: string, parse: string -> Option<AgentConfig>)
    ensures GenerateAgentConfigAsWritten(goal, Failure(message), parse) != Failure(Raised(ConfigErrorPrefix + ApiError(message)))
  {
  }

  /**
   * Configuration generation as intended: the cleaned reply is parsed, text
   * that is not JSON gives the fallback team, and a failed call is re-raised
   * with both prefixes.
   */
  function GenerateAgentConfig(goal: string, reply: Result<string, string>,
                               parse: string -> Option<AgentConfig>): (r: Result<AgentConfig, ConfigFailure>)
    ensures r.Success? <==> reply.Success?
    ensures reply.Failure? ==> r == Failure(Raised(ConfigErrorPrefix + ApiError(reply.error)))
    ensures reply.Success? && parse(CleanFences(reply.value)).None? ==> r.value == FallbackConfig(goal)
    ensures reply.Success? && parse(CleanFences(reply.value)).Some? ==> r.value == parse(CleanFences(reply.value)).value
  {
    match Generate(reply)
    case Failure(e) => Failure(Raised(ConfigErrorPrefix + e))
    case Success(text) =>
      match parse(CleanFences(text))
      case None => Success(FallbackConfig(goal))
      case Some(config) => Success(config)
  }

  /** The two agree whenever the generation call succeeds. */
  lemma AgentConfigAgreesOnReply(goal: string, text: string, parse: string -> Option<AgentConfig>)
    ensures GenerateAgentConfig(goal, Success(text), parse) == GenerateAgentConfigAsWritten(goal, Success(text), parse)
  {
  }

  /** A reply that is not JSON never fails: the goal comes back as the suggested query. */
  lemma FallbackKeepsGoal(goal: string, text: string, parse: string -> Option<AgentConfig>)
    requires parse(CleanFences(text)).None?
    ensures GenerateAgentConfig(goal, Success(text), parse) == Success(FallbackConfig(goal))
    ensures GenerateAgentConfig(goal, Success(text), parse).value.suggestedQuery == goal
  {
  }

  /** The heading the goal follows in the configuration prompt. */
  const GoalHeading: string := "\n\nUSER GOAL:\n"

  /** The heading the prompt closes with, after the goal. */
  const OutputHeading: string := "\n\nJSON OUTPUT:\n"

  /** The prompt the generator sends: the architect instructions, then the goal. */
  function ConfigPrompt(instructions: string, goal: string): (p: string)
    ensures StartsWith(p, instructions)
    ensures EndsWith(p, GoalHeading + goal + OutputHeading)
    ensures |p| == |instructions| + |GoalHeading + goal + OutputHeading|
  {
    var tail := GoalHeading + goal + OutputHeading;
    ConcatParts(instructions, tail);
    instructions + tail
  }

  /** The instructions the configuration prompt opens with. */
  const ArchitectInstructions: string :=
    "You are an AI architect that designs agent teams.\n" +
    "\n" +
    "Given a user's goal, output a JSON configuration for a team of AI agents.\n" +
    "\n" +
    "RULES:\n" +
    "1. Use 1-3 agents maximum (keep it simple)\n" +
    "2. Each agent should have:\n" +
    "   - id: unique identifier (e.g., \"agent-1\")\n" +
    "   - role: one of [\"analyst\", \"writer\", \"researcher\"]\n" +
    "   - name: descriptive name (e.g., \"Market Analyst\")\n" +
    "   - suggested_xy: recommended XY position as {x: 0.0-1.0, y: 0.0-1.0}\n" +
    "     - x: density (0=summary, 1=verbose)\n" +
    "     - y: creativity (0=factual, 1=creative)\n" +
    "\n" +
    "3. Suggest appropriate connections between agents if needed\n" +
    "\n" +
    "OUTPUT FORMAT (strict JSON):\n" +
    "{\n" +
    "  \"agents\": [\n" +
    "    {\n" +
    "      \"id\": \"agent-1\",\n" +
    "      \"role\": \"researcher\",\n" +
    "      \"name\": \"Data Researcher\",\n" +
    "      \"suggested_xy\": {\"x\": 0.6, \"y\": 0.2}\n" +
    "    }\n" +
    "  ],\n" +
    "  \"suggested_query\": \"A refined version of the user's goal as a clear task\"\n" +
    "}\n" +
    "\n" +
    "IMPORTANT: Output ONLY valid JSON, no markdown, no explanation."

  /** The prompt the configuration generator sends for a goal. */
  function ArchitectPrompt(goal: string): (p: string)
    ensures StartsWith(p, ArchitectInstructions)
    ensures EndsWith(p, GoalHeading + goal + OutputHeading)
    ensures |p| == |ArchitectInstructions| + |GoalHeading + goal + OutputHeading|
  {
    ConfigPrompt(ArchitectInstructions, goal)
  }

  /**
   * The goal can be read back out of a configuration prompt: it is what lies
   * between the goal heading and the output heading.
   */
  lemma {:induction false} ConfigPromptCarriesGoal(instructions: string, goal: string)
    ensures var p := ConfigPrompt(instructions, goal);
      |instructions| + |GoalHeading| <= |p| - |OutputHeading| &&
      p[|instructions| + |GoalHeading| .. |p| - |OutputHeading|] == goal
  {
    var p := ConfigPrompt(instructions, goal);
    assert p == instructions + (GoalHeading + goal + OutputHeading);
    assert p == (instructions + GoalHeading) + goal + OutputHeading;
    ConcatParts(instructions + GoalHeading, goal + OutputHeading);
  }

  /** The text an exception of the generator reads as. */
  function FailureMessage(f: ConfigFailure): string
  {
    match f
    case Raised(m) => m
    case UnboundLocal(name) => "cannot access local variable '" + name + "' where it is not associated with a value"
  }
}

=== FILE: models.dfy ===
/**
 * The request and response records of the service and the field constraints
 * the schema layer enforces on them. A constraint violation rejects the
 * request; nothing is clamped into range.
 */
module Models {
  import opened Wrappers

  // ---------------------------------------------------------------------------
  // Pad position and requests

  /** A point on the XY pad: `x` is output density, `y` is creativity. */
  datatype Position = Position(x: real, y: real)

  predicate ValidPosition(p: Position)
  {
    0.0 <= p.x <= 1.0 && 0.0 <= p.y <= 1.0
  }

  const MinQueryLength: nat := 1
  const MaxQueryLength: nat := 2000

  /** The personas a request may name. */
  const Roles: set<string> := {"analyst", "writer", "researcher"}

  /** The persona used when a request names none. */
  const DefaultRole: string := "analyst"

  predicate ValidQuery(q: string)
  {
    MinQueryLength <= |q| <= MaxQueryLength
  }

  /** A validated execution or preview request (the two share one schema). */
  datatype ExecutionRequest = ExecutionRequest(query: string, position: Position, agentRole: string)

  predicate ValidRequest(r: ExecutionRequest)
  {
    ValidQuery(r.query) && ValidPosition(r.position) && r.agentRole in Roles
  }

  /** A request body as received, before validation; the role may be omitted. */
  datatype RequestBody = RequestBody(query: string, x: real, y: real, agentRole: Option<string>)

  /** One violated field constraint; the schema layer reports all of them at once. */
  datatype FieldError = QueryTooShort | QueryTooLong | XOutOfRange | YOutOfRange | RoleNotAllowed

  /** The body a validated request was read from, with the role written out. */
  function BodyOf(r: ExecutionRequest): RequestBody
  {
    RequestBody(r.query, r.position.x, r.position.y, Some(r.agentRole))
  }

  /**
   * Schema validation of a request body: every violated constraint is
   * reported, and a body with none becomes a request whose role defaults
   * to the analyst persona.
   */
  function ValidateRequest(body: RequestBody): (r: Result<ExecutionRequest, set<FieldError>>)
    ensures r.Success? <==>
      && ValidQuery(body.query)
      && 0.0 <= body.x <= 1.0 && 0.0 <= body.y <= 1.0
      && body.agentRole.GetOr(DefaultRole) in Roles
    ensures r.Success? ==>
      && ValidRequest(r.value)
      && r.value.query == body.query
      && r.value.position == Position(body.x, body.y)
      && r.value.agentRole == body.agentRole.GetOr(DefaultRole)
    ensures r.Failure? ==>
      && r.error != {}
      && (QueryTooShort in r.error <==> |body.query| < MinQueryLength)
      && (QueryTooLong in r.error <==> |body.query| > MaxQueryLength)
      && (XOutOfRange in r.error <==> !(0.0 <= body.x <= 1.0))
      && (YOutOfRange in r.error <==> !(0.0 <= body.y <= 1.0))
      && (RoleNotAllowed in r.error <==> body.agentRole.GetOr(DefaultRole) !in Roles)
  {
    var role := body.agentRole.GetOr(DefaultRole);
    var errors :=
      (if |body.query| < MinQueryLength then {QueryTooShort} else {})
      + (if |body.query| > MaxQueryLength then {QueryTooLong} else {})
      + (if 0.0 <= body.x <= 1.0 then {} else {XOutOfRange})
      + (if 0.0 <= body.y <= 1.0 then {} else {YOutOfRange})
      + (if role in Roles then {} else {RoleNotAllowed});
    if errors == {} then
      Success(ExecutionRequest(body.query, Position(body.x, body.y), role))
    else
      Failure(errors)
  }

  /**
   * Validation accepts exactly the valid requests: a body validates to `r`
   * if and only if `r` is valid and the body carries `r`'s fields (with an
   * omitted role standing for the default persona).
   */
  lemma ValidateExactlyValid(body: RequestBody, r: ExecutionRequest)
    ensures ValidateRequest(body) == Success(r) <==>
      ValidRequest(r) && BodyOf(r) == body.(agentRole := Some(body.agentRole.GetOr(DefaultRole)))
  {
  }

  /** A validated request, written back out as a body, validates to itself. */
  lemma ValidateBodyOf(r: ExecutionRequest)
    requires ValidRequest(r)
    ensures ValidateRequest(BodyOf(r)) == Success(r)
  {
  }

  /** Out-of-range coordinates are rejected, never clamped into the pad. */
  lemma OvershootRejected(q: string)
    requires ValidQuery(q)
    ensures ValidateRequest(RequestBody(q, 1.4, -0.2, None)) == Failure({XOutOfRange, YOutOfRange})
  {
    var r := ValidateRequest(RequestBody(q, 1.4, -0.2, None));
    assert r.Failure?;
    assert XOutOfRange in r.error && YOutOfRange in r.error;
    assert forall e :: e in r.error ==> e == XOutOfRange || e == YOutOfRange;
    assert r.error == {XOutOfRange, YOutOfRange};
  }

  // ---------------------------------------------------------------------------
  // Responses

  /** The transparent breakdown of the prompt sent for one request. */
  datatype PromptComponents = PromptComponents(
    basePrompt: string,
    creativityModifier: string,
    densityModifier: string,
    finalSystemPrompt: string,
    userQuery: string,
    temperature: real)

  predicate ValidComponents(c: PromptComponents)
  {
    0.0 <= c.temperature <= 1.0
  }

  /** Estimated token counts and cost of one generation. */
  datatype TokenUsage = TokenUsage(promptTokens: int, completionTokens: int, totalTokens: int, estimatedCost: real)

  predicate ValidTokenUsage(u: TokenUsage)
  {
    u.promptTokens >= 0 && u.completionTokens >= 0 && u.totalTokens >= 0 && u.estimatedCost >= 0.0
  }

  /** A UTC wall-clock reading to the second. */
  datatype DateTime = DateTime(year: nat, month: nat, day: nat, hour: nat, minute: nat, second: nat)

  predicate ValidDateTime(t: DateTime)
  {
    && 1 <= t.year <= 9999 && 1 <= t.month <= 12 && 1 <= t.day <= 31
    && t.hour < 24 && t.minute < 60 && t.second < 60
  }

  /** The file types an artifact's metadata may record. */
  const FileTypes: set<string> := {"markdown", "json", "text"}

  /** The metadata stored beside each artifact, including its full content. */
  datatype ArtifactMetadata = ArtifactMetadata(
    artifactId: string,
    filename: string,
    content: string,
    createdAt: DateTime,
    fileType: string,
    sizeBytes: int,
    agentRole: string)

  predicate ValidArtifactMetadata(m: ArtifactMetadata)
  {
    m.sizeBytes >= 0 && m.fileType in FileTypes
  }
}

=== FILE: prompt_engine.dfy ===
/**
 * The prompt engine: an XY pad position is cut into a density band (x) and a
 * creativity band (y), each band selects a fixed instruction text, and the
 * system prompt is assembled from the role's base prompt, the two
 * instructions and a fixed constraints block. The sampling temperature is an
 * affine function of y.
 */
module PromptEngine {
  import opened Text
  import opened Models
  import opened Wrappers

  // ---------------------------------------------------------------------------
  // Bands

  /** Output density selected by the x axis. */
  datatype DensityBand = ExecutiveSummary | DetailedReport | RawVerbose

  /** Creativity level selected by the y axis. */
  datatype CreativityBand = StrictlyFactual | BalancedInsight | SpeculativeCreative

  /** Both axes use the same two cut points; a value on a cut point belongs to the higher band. */
  const LowCut: real := 0.3
  const HighCut: real := 0.7

  function DensityBandOf(x: real): DensityBand
  {
    if x < LowCut then ExecutiveSummary
    else if x < HighCut then DetailedReport
    else RawVerbose
  }

  function CreativityBandOf(y: real): CreativityBand
  {
    if y < LowCut then StrictlyFactual
    else if y < HighCut then BalancedInsight
    else SpeculativeCreative
  }

  /** Position of a density band on the axis, lowest first. */
  function DensityRank(b: DensityBand): nat
  {
    match b
    case ExecutiveSummary => 0
    case DetailedReport => 1
    case RawVerbose => 2
  }

  function CreativityRank(b: CreativityBand): nat
  {
    match b
    case StrictlyFactual => 0
    case BalancedInsight => 1
    case SpeculativeCreative => 2
  }

  /**
   * The density bands are the half-open intervals [0, 0.3), [0.3, 0.7) and
   * [0.7, 1] (open below for out-of-pad values), and the band never goes
   * down as x grows.
   */
  lemma DensityBands(x: real, x': real)
    ensures DensityBandOf(x) == ExecutiveSummary <==> x < 0.3
    ensures DensityBandOf(x) == DetailedReport <==> 0.3 <= x < 0.7
    ensures DensityBandOf(x) == RawVerbose <==> 0.7 <= x
    ensures x <= x' ==> DensityRank(DensityBandOf(x)) <= DensityRank(DensityBandOf(x'))
  {
  }

  /** The creativity bands use the same cut points on y and are monotone in y. */
  lemma CreativityBands(y: real, y': real)
    ensures CreativityBandOf(y) == StrictlyFactual <==> y < 0.3
    ensures CreativityBandOf(y) == BalancedInsight <==> 0.3 <= y < 0.7
    ensures CreativityBandOf(y) == SpeculativeCreative <==> 0.7 <= y
    ensures y <= y' ==> CreativityRank(CreativityBandOf(y)) <= CreativityRank(CreativityBandOf(y'))
  {
  }

  // ---------------------------------------------------------------------------
  // Instruction texts

  /**
   * The fixed wording of the prompts: the three base prompts, the bullet
   * lines under each band's first line, and the constraints block that closes
   * every system prompt. The assembly below is stated for any wording;
   * `SourceWording` is the one the service uses.
   */
  datatype Wording = Wording(
    analystBase: string, writerBase: string, researcherBase: string,
    factualLines: string, balancedLines: string, speculativeLines: string,
    summaryLines: string, reportLines: string, verboseLines: string,
    constraints: string)

  const SourceWording: Wording := Wording(
    "You are a financial analyst agent specialized in data-driven insights and market analysis.",
    "You are a creative writer agent focused on compelling narratives and engaging content.",
    "You are a research agent that gathers, synthesizes, and analyzes information from multiple sources.",
    "- Base all statements on verified data and established facts\n- Avoid speculation or hypothetical scenarios\n- Use conservative, evidence-based language (e.g., \"data shows\" rather than \"might indicate\")\n- Cite sources or note data limitations when appropriate\n- Maintain objectivity and avoid interpretive leaps\n- Recommended Temperature: 0.2",
    "- Blend factual analysis with reasonable inferences\n- Use moderate speculation, clearly labeled as such\n- Consider multiple perspectives and interpretations\n- Balance empirical data with thoughtful extrapolation\n- Acknowledge uncertainty where it exists\n- Recommended Temperature: 0.5",
    "- Generate novel insights and unexpected connections\n- Explore hypothetical scenarios and \"what-if\" thinking\n- Use creative framing, metaphors, and analogies\n- Challenge conventional interpretations\n- Embrace imaginative reasoning while noting speculative elements\n- Recommended Temperature: 0.9",
    "- Provide only key insights and conclusions\n- Maximum 3-5 bullet points or brief paragraphs\n- Avoid technical details unless absolutely critical\n- Focus on actionable recommendations\n- Keep total response under 200 words",
    "- Provide comprehensive analysis with supporting evidence\n- Include relevant context and methodology\n- Balance depth with readability\n- Use structured formatting (headings, lists, paragraphs)\n- Target 300-500 words with clear organization",
    "- Include all relevant data points and calculations\n- Show your reasoning process step-by-step\n- Provide extensive context and background information\n- Include data sources, assumptions, and confidence levels\n- Aim for thorough coverage (500+ words if needed)",
    "CONSTRAINTS:\n- Respond in Markdown format for readability\n- Be transparent about uncertainty and assumptions\n- Maintain professional tone while matching the creativity level\n")

  const DensityHeader: string := "OUTPUT_DENSITY: "
  const CreativityHeader: string := "CREATIVITY_LEVEL: "

  /** The band name each instruction announces on its first line. */
  function DensityName(b: DensityBand): string
  {
    match b
    case ExecutiveSummary => "EXECUTIVE_SUMMARY"
    case DetailedReport => "DETAILED_REPORT"
    case RawVerbose => "RAW_VERBOSE"
  }

  function CreativityName(b: CreativityBand): string
  {
    match b
    case StrictlyFactual => "STRICTLY_FACTUAL"
    case BalancedInsight => "BALANCED_INSIGHT"
    case SpeculativeCreative => "SPECULATIVE_CREATIVE"
  }

  /** The first line of a density instruction, naming its band. */
  function DensityLine(b: DensityBand): string
  {
    DensityHeader + DensityName(b) + "\n"
  }

  /** The first line of a creativity instruction, naming its band. */
  function CreativityLine(b: CreativityBand): string
  {
    CreativityHeader + CreativityName(b) + "\n"
  }

  /** The bullet lines under a density band's first line. */
  function DensityLines(w: Wording, b: DensityBand): string
  {
    match b
    case ExecutiveSummary => w.summaryLines
    case DetailedReport => w.reportLines
    case RawVerbose => w.verboseLines
  }

  /** The bullet lines under a creativity band's first line. */
  function CreativityLines(w: Wording, b: CreativityBand): string
  {
    match b
    case StrictlyFactual => w.factualLines
    case BalancedInsight => w.balancedLines
    case SpeculativeCreative => w.speculativeLines
  }

  /** The instruction for density value `x`: the line naming its band, then that band's bullets. */
  function DensityInstruction(w: Wording, x: real): (s: string)
    ensures StartsWith(s, DensityLine(DensityBandOf(x)))
    ensures s[|DensityLine(DensityBandOf(x))|..] == DensityLines(w, DensityBandOf(x))
  {
    var b := DensityBandOf(x);
    ConcatParts(DensityLine(b), DensityLines(w, b));
    DensityLine(b) + DensityLines(w, b)
  }

  /** The instruction for creativity value `y`: the line naming its band, then that band's bullets. */
  function CreativityInstruction(w: Wording, y: real): (s: string)
    ensures StartsWith(s, CreativityLine(CreativityBandOf(y)))
    ensures s[|CreativityLine(CreativityBandOf(y))|..] == CreativityLines(w, CreativityBandOf(y))
  {
    var b := CreativityBandOf(y);
    ConcatParts(CreativityLine(b), CreativityLines(w, b));
    CreativityLine(b) + CreativityLines(w, b)
  }

  /** The temperature each creativity instruction recommends in its last line. */
  function RecommendedTemperature(b: CreativityBand): real
  {
    match b
    case StrictlyFactual => 0.2
    case BalancedInsight => 0.5
    case SpeculativeCreative => 0.9
  }

  // ---------------------------------------------------------------------------
  // Temperature

  const MinTemperature: real := 0.2
  const TemperatureSpan: real := 0.7

  /** The sampling temperature for creativity value `y`. */
  function Temperature(y: real): (t: real)
    ensures 0.0 <= y <= 1.0 ==> 0.2 <= t <= 0.9
    ensures y == 0.0 ==> t == 0.2
    ensures y == 1.0 ==> t == 0.9
  {
    MinTemperature + y * TemperatureSpan
  }

  /** Temperature never decreases as y grows, and strictly increases with it. */
  lemma TemperatureMonotone(y: real, y': real)
    ensures y <= y' ==> Temperature(y) <= Temperature(y')
    ensures y < y' ==> Temperature(y) < Temperature(y')
  {
  }

  /** The creativity value is recoverable from the temperature it produced. */
  lemma TemperatureInverse(y: real)
    ensures (Temperature(y) - 0.2) / 0.7 == y
  {
  }

  /**
   * The creativity band can be read off the temperature alone: the cut points
   * 0.3 and 0.7 on y are the temperatures 0.41 and 0.69.
   */
  lemma CreativityBandByTemperature(y: real)
    ensures CreativityBandOf(y) == StrictlyFactual <==> Temperature(y) < 0.41
    ensures CreativityBandOf(y) == BalancedInsight <==> 0.41 <= Temperature(y) < 0.69
    ensures CreativityBandOf(y) == SpeculativeCreative <==> 0.69 <= Temperature(y)
  {
  }

  /**
   * On the pad, the temperature actually used is never more than 0.21 away
   * from the temperature the selected instruction recommends, and the bound
   * is reached (at y = 0.7 the temperature is 0.69 while 0.9 is recommended).
   */
  lemma RecommendedTemperatureGap(y: real)
    requires 0.0 <= y <= 1.0
    ensures -0.21 <= Temperature(y) - RecommendedTemperature(CreativityBandOf(y)) <= 0.21
    ensures y == 0.7 ==> Temperature(y) - RecommendedTemperature(CreativityBandOf(y)) == -0.21
  {
  }

  // ---------------------------------------------------------------------------
  // Roles and prompt assembly

  /** The personas that have a base prompt. */
  datatype Role = Analyst | Writer | Researcher

  function RoleName(r: Role): string
  {
    match r
    case Analyst => "analyst"
    case Writer => "writer"
    case Researcher => "researcher"
  }

  function BaseText(w: Wording, r: Role): string
  {
    match r
    case Analyst => w.analystBase
    case Writer => w.writerBase
    case Researcher => w.researcherBase
  }

  /** The base-prompt table, keyed by role name. */
  function BasePrompts(w: Wording): map<string, string>
  {
    map[RoleName(Analyst) := BaseText(w, Analyst),
        RoleName(Writer) := BaseText(w, Writer),
        RoleName(Researcher) := BaseText(w, Researcher)]
  }

  /** The persona a role name selects; a name without a base prompt selects the analyst. */
  function RoleOf(name: string): (r: Role)
    ensures name in Roles ==> RoleName(r) == name
    ensures name !in Roles ==> r == Analyst
  {
    if name == "writer" then Writer
    else if name == "researcher" then Researcher
    else Analyst
  }

  /** Table lookup with the analyst prompt as the fallback. */
  function BasePrompt(w: Wording, name: string): (s: string)
    ensures name in BasePrompts(w) ==> s == BasePrompts(w)[name]
    ensures name !in BasePrompts(w) ==> s == BasePrompts(w)["analyst"]
  {
    BaseText(w, RoleOf(name))
  }

  /** The blank line between the parts of a system prompt. */
  const Separator: string := "\n\n"

  /** The prompt for one set of parts: base, creativity, density, constraints, blank-line separated. */
  function Assemble(base: string, creativity: string, density: string, constraints: string): string
  {
    base + Separator + creativity + Separator + density + Separator + constraints
  }

  /** All prompt components for a request, for display before execution. */
  function BuildPromptComponents(w: Wording, agentRole: string, x: real, y: real, userQuery: string): (c: PromptComponents)
    ensures c.basePrompt == BasePrompt(w, agentRole)
    ensures c.creativityModifier == CreativityInstruction(w, y)
    ensures c.densityModifier == DensityInstruction(w, x)
    ensures c.finalSystemPrompt == Assemble(c.basePrompt, c.creativityModifier, c.densityModifier, w.constraints)
    ensures c.userQuery == userQuery
    ensures c.temperature == Temperature(y)
  {
    var base := BasePrompt(w, agentRole);
    var creativity := CreativityInstruction(w, y);
    var density := DensityInstruction(w, x);
    PromptComponents(base, creativity, density, Assemble(base, creativity, density, w.constraints), userQuery, Temperature(y))
  }

  const QueryHeader: string := "\n\n---\nUSER QUERY:\n"
  const ResponseFooter: string := "\n\n---\nRESPONSE:\n"

  /** The single prompt sent to the model: system prompt, then the query block. */
  function BuildFullPrompt(w: Wording, agentRole: string, x: real, y: real, userQuery: string): (s: string)
    ensures StartsWith(s, BuildPromptComponents(w, agentRole, x, y, userQuery).finalSystemPrompt)
    ensures EndsWith(s, QueryHeader + userQuery + ResponseFooter)
  {
    var system := BuildPromptComponents(w, agentRole, x, y, userQuery).finalSystemPrompt;
    ConcatParts(system, QueryHeader + userQuery + ResponseFooter);
    system + (QueryHeader + userQuery + ResponseFooter)
  }

  /** The query cut back out of a full prompt whose system part has length `systemLength`. */
  function QueryOf(fullPrompt: string, systemLength: nat): Option<string>
  {
    var start := systemLength + |QueryHeader|;
    if start + |ResponseFooter| <= |fullPrompt| then
      Some(fullPrompt[start..|fullPrompt| - |ResponseFooter|])
    else
      None
  }

  /** The query in a full prompt is exactly the user's query, unchanged. */
  lemma FullPromptCarriesQuery(w: Wording, agentRole: string, x: real, y: real, userQuery: string)
    ensures QueryOf(BuildFullPrompt(w, agentRole, x, y, userQuery),
                    |BuildPromptComponents(w, agentRole, x, y, userQuery).finalSystemPrompt|) == Some(userQuery)
  {
    var system := BuildPromptComponents(w, agentRole, x, y, userQuery).finalSystemPrompt;
    var s := BuildFullPrompt(w, agentRole, x, y, userQuery);
    assert s == system + QueryHeader + userQuery + ResponseFooter;
    assert s[|system| + |QueryHeader|..|s| - |ResponseFooter|] == userQuery;
  }

  /** Every position on the pad yields components the response schema accepts. */
  lemma ValidPositionValidComponents(w: Wording, agentRole: string, p: Position, userQuery: string)
    requires ValidPosition(p)
    ensures ValidComponents(BuildPromptComponents(w, agentRole, p.x, p.y, userQuery))
    ensures 0.2 <= BuildPromptComponents(w, agentRole, p.x, p.y, userQuery).temperature <= 0.9
  {
  }

  /** The two corners the engine is demonstrated on. */
  lemma Corners(w: Wording, agentRole: string, q: string)
    ensures BuildPromptComponents(w, agentRole, 0.0, 0.0, q).creativityModifier == CreativityLine(StrictlyFactual) + w.factualLines
    ensures BuildPromptComponents(w, agentRole, 0.0, 0.0, q).densityModifier == DensityLine(ExecutiveSummary) + w.summaryLines
    ensures BuildPromptComponents(w, agentRole, 0.0, 0.0, q).temperature == 0.2
    ensures BuildPromptComponents(w, agentRole, 1.0, 1.0, q).creativityModifier == CreativityLine(SpeculativeCreative) + w.speculativeLines
    ensures BuildPromptComponents(w, agentRole, 1.0, 1.0, q).densityModifier == DensityLine(RawVerbose) + w.verboseLines
    ensures BuildPromptComponents(w, agentRole, 1.0, 1.0, q).temperature == 0.9
  {
  }

  // ---------------------------------------------------------------------------
  // Reading the bands back out of the text

  /** `s` does not start with `p` when `p` disagrees with a known prefix `q` of `s`. */
  lemma NotPrefix(s: string, p: string, q: string, k: nat)
    requires StartsWith(s, q) && k < |p| && k < |q| && p[k] != q[k]
    ensures !StartsWith(s, p)
  {
    assert s[k] == q[k];
  }

  /** The density band whose first line `s` starts with, if any. */
  function ReadDensityBand(s: string): Option<DensityBand>
  {
    if StartsWith(s, DensityLine(ExecutiveSummary)) then Some(ExecutiveSummary)
    else if StartsWith(s, DensityLine(DetailedReport)) then Some(DetailedReport)
    else if StartsWith(s, DensityLine(RawVerbose)) then Some(RawVerbose)
    else None
  }

  /** The creativity band whose first line `s` starts with, if any. */
  function ReadCreativityBand(s: string): Option<CreativityBand>
  {
    if StartsWith(s, CreativityLine(StrictlyFactual)) then Some(StrictlyFactual)
    else if StartsWith(s, CreativityLine(BalancedInsight)) then Some(BalancedInsight)
    else if StartsWith(s, CreativityLine(SpeculativeCreative)) then Some(SpeculativeCreative)
    else None
  }

  /** A text whose first line names a density band reads back as that band. */
  lemma ReadDensityBandOf(b: DensityBand, tail: string)
    ensures ReadDensityBand(DensityLine(b) + tail) == Some(b)
  {
    var s := DensityLine(b) + tail;
    ConcatParts(DensityLine(b), tail);
    var k := |DensityHeader|;
    forall b' | b' != b
      ensures !StartsWith(s, DensityLine(b'))
    {
      assert DensityLine(b')[k] == DensityName(b')[0];
      assert DensityLine(b)[k] == DensityName(b)[0];
      NotPrefix(s, DensityLine(b'), DensityLine(b), k);
    }
  }

  /** A text whose first line names a creativity band reads back as that band. */
  lemma ReadCreativityBandOf(b: CreativityBand, tail: string)
    ensures ReadCreativityBand(CreativityLine(b) + tail) == Some(b)
  {
    var s := CreativityLine(b) + tail;
    ConcatParts(CreativityLine(b), tail);
    var k := |CreativityHeader| + 1;
    forall b' | b' != b
      ensures !StartsWith(s, CreativityLine(b'))
    {
      assert CreativityLine(b')[k] == CreativityName(b')[1];
      assert CreativityLine(b)[k] == CreativityName(b)[1];
      NotPrefix(s, CreativityLine(b'), CreativityLine(b), k);
    }
  }

  /** Each density instruction announces the band of the x value it was chosen for. */
  lemma DensityInstructionNamesBand(w: Wording, x: real)
    ensures ReadDensityBand(DensityInstruction(w, x)) == Some(DensityBandOf(x))
  {
    ReadDensityBandOf(DensityBandOf(x), DensityLines(w, DensityBandOf(x)));
  }

  /** Each creativity instruction announces the band of the y value it was chosen for. */
  lemma CreativityInstructionNamesBand(w: Wording, y: real)
    ensures ReadCreativityBand(CreativityInstruction(w, y)) == Some(CreativityBandOf(y))
  {
    ReadCreativityBandOf(CreativityBandOf(y), CreativityLines(w, CreativityBandOf(y)));
  }

  /** What a system prompt is made of: the persona and the two bands. */
  datatype Selection = Selection(role: Role, creativity: CreativityBand, density: DensityBand)

  /** The system prompt for one selection. */
  function SystemPrompt(w: Wording, sel: Selection): string
  {
    Assemble(BaseText(w, sel.role),
             CreativityLine(sel.creativity) + CreativityLines(w, sel.creativity),
             DensityLine(sel.density) + DensityLines(w, sel.density),
             w.constraints)
  }

  /**
   * Reads the two bands back out of a system prompt assembled for persona
   * `role`: the creativity instruction follows the base prompt, the density
   * instruction follows the creativity instruction. `None` unless `s` is
   * exactly the prompt assembled from the bands read.
   */
  function ParseSystemPrompt(w: Wording, s: string, role: Role): Option<Selection>
  {
    var start := |BaseText(w, role) + Separator|;
    if start > |s| then None
    else
      match ReadCreativityBand(s[start..])
      case None => None
      case Some(c) =>
        var start' := start + |CreativityLine(c) + CreativityLines(w, c) + Separator|;
        if start' > |s| then None
        else
          match ReadDensityBand(s[start'..])
          case None => None
          case Some(d) =>
            if s == SystemPrompt(w, Selection(role, c, d)) then Some(Selection(role, c, d)) else None
  }

  /** How an assembled prompt splits at the start of each instruction. */
  lemma AssemblySplits(base: string, cl: string, cs: string, dl: string, ds: string, k: string)
    ensures Assemble(base, cl + cs, dl + ds, k)
         == (base + Separator) + (cl + (cs + Separator + (dl + ds) + Separator + k))
    ensures Assemble(base, cl + cs, dl + ds, k)
         == (base + Separator + (cl + cs) + Separator) + (dl + (ds + Separator + k))
  {
  }

  /** Every assembled system prompt reads back as the selection it was assembled from. */
  lemma SystemPromptRoundTrip(w: Wording, sel: Selection)
    ensures ParseSystemPrompt(w, SystemPrompt(w, sel), sel.role) == Some(sel)
  {
    var base, k := BaseText(w, sel.role), w.constraints;
    var cl, cs := CreativityLine(sel.creativity), CreativityLines(w, sel.creativity);
    var dl, ds := DensityLine(sel.density), DensityLines(w, sel.density);
    AssemblySplits(base, cl, cs, dl, ds, k);
    ConcatParts(base + Separator, cl + (cs + Separator + (dl + ds) + Separator + k));
    ReadCreativityBandOf(sel.creativity, cs + Separator + (dl + ds) + Separator + k);
    ConcatParts(base + Separator + (cl + cs) + Separator, dl + (ds + Separator + k));
    ReadDensityBandOf(sel.density, ds + Separator + k);
  }

  /** The selection a request's role name and pad position make. */
  function SelectionOf(agentRole: string, x: real, y: real): Selection
  {
    Selection(RoleOf(agentRole), CreativityBandOf(y), DensityBandOf(x))
  }

  /**
   * The final system prompt shown to the user names exactly the bands used:
   * read back for the request's persona (the analyst when the role has no
   * base prompt), it yields the bands of the request's position.
   */
  lemma PromptShowsSettings(w: Wording, agentRole: string, x: real, y: real, userQuery: string)
    ensures ParseSystemPrompt(w, BuildPromptComponents(w, agentRole, x, y, userQuery).finalSystemPrompt, RoleOf(agentRole))
         == Some(SelectionOf(agentRole, x, y))
  {
    SystemPromptRoundTrip(w, SelectionOf(agentRole, x, y));
  }

  /** Two positions give the same system prompt only if they fall in the same bands. */
  lemma SamePromptSameBands(w: Wording, role: string, x: real, y: real, x': real, y': real, q: string, q': string)
    requires BuildPromptComponents(w, role, x, y, q).finalSystemPrompt == BuildPromptComponents(w, role, x', y', q').finalSystemPrompt
    ensures DensityBandOf(x) == DensityBandOf(x') && CreativityBandOf(y) == CreativityBandOf(y')
  {
    PromptShowsSettings(w, role, x, y, q);
    PromptShowsSettings(w, role, x', y', q');
  }
}

=== FILE: text.dfy ===
/**
 * String helpers shared by the model: prefix/suffix tests, in-order
 * concatenation, Python's whitespace stripping and fixed-width decimal digits.
 */
module Text {

  /** `s` starts with `p` (Python's `str.startswith`). */
  predicate StartsWith(s: string, p: string)
  {
    |p| <= |s| && s[..|p|] == p
  }

  /** `s` ends with `p` (Python's `str.endswith`). */
  predicate EndsWith(s: string, p: string)
  {
    |p| <= |s| && s[|s| - |p|..] == p
  }

  /** A concatenation starts with its first part and ends with its second. */
  lemma ConcatParts(a: string, t: string)
    ensures StartsWith(a + t, a) && EndsWith(a + t, t)
    ensures (a + t)[..|a|] == a && (a + t)[|a|..] == t
  {
  }

  /** A text starting with `p + q` starts with `p`. */
  lemma StartsWithLonger(s: string, p: string, q: string)
    requires StartsWith(s, p + q)
    ensures StartsWith(s, p)
  {
    assert s[..|p|] == s[..|p + q|][..|p|];
  }

  /** `s` without the prefix `p` when it has it (Python's `str.removeprefix`). */
  function DropPrefix(s: string, p: string): (r: string)
    ensures StartsWith(s, p) ==> s == p + r
    ensures !StartsWith(s, p) ==> r == s
    ensures IsSliceOf(r, s)
  {
    if StartsWith(s, p) then
      assert s == s[..|p|] + s[|p|..];
      assert s[|p|..] == s[|p|..|s|];
      s[|p|..]
    else
      assert s == s[0..|s|];
      s
  }

  /** `s` without the suffix `p` when it has it (Python's `str.removesuffix`). */
  function DropSuffix(s: string, p: string): (r: string)
    ensures EndsWith(s, p) ==> s == r + p
    ensures !EndsWith(s, p) ==> r == s
    ensures IsSliceOf(r, s)
  {
    if EndsWith(s, p) then
      assert s == s[..|s| - |p|] + s[|s| - |p|..];
      assert s[..|s| - |p|] == s[0..|s| - |p|];
      s[..|s| - |p|]
    else
      assert s == s[0..|s|];
      s
  }

  /** `r` occurs in `s` as one contiguous run of characters. */
  ghost predicate IsSliceOf(r: string, s: string)
  {
    exists i, j :: 0 <= i <= j <= |s| && r == s[i..j]
  }

  lemma SliceOfSlice(r: string, s: string, t: string)
    requires IsSliceOf(r, s) && IsSliceOf(s, t)
    ensures IsSliceOf(r, t)
  {
    var i, j :| 0 <= i <= j <= |s| && r == s[i..j];
    var k, l :| 0 <= k <= l <= |t| && s == t[k..l];
    assert |r| == j - i;
    forall n | 0 <= n < j - i
      ensures r[n] == t[k + i..k + j][n]
    {
      assert r[n] == s[i + n] == t[k + i + n];
    }
    assert r == t[k + i..k + j];
  }

  // ---------------------------------------------------------------------------
  // Concatenation

  /** The parts joined in order, with no separator (Python's `"".join`). */
  function Concat(parts: seq<string>): string
  {
    if |parts| == 0 then "" else parts[0] + Concat(parts[1..])
  }

  lemma {:induction false} ConcatAppend(a: seq<string>, b: seq<string>)
    ensures Concat(a + b) == Concat(a) + Concat(b)
  {
    if |a| == 0 {
      assert a + b == b;
    } else {
      assert (a + b)[1..] == a[1..] + b;
      ConcatAppend(a[1..], b);
    }
  }

  // ---------------------------------------------------------------------------
  // Whitespace and stripping

  /**
   * The characters Python's `str.isspace` accepts: the ASCII controls
   * TAB..CR, the separators U+001C..U+001F, SPACE, NEL, NO-BREAK SPACE and
   * the Unicode space separators.
   */
  predicate IsSpace(c: char)
  {
    var n := c as int;
    || (9 <= n <= 13)
    || (28 <= n <= 32)
    || n == 0x85 || n == 0xA0 || n == 0x1680
    || (0x2000 <= n <= 0x200A)
    || n == 0x2028 || n == 0x2029 || n == 0x202F || n == 0x205F || n == 0x3000
  }

  predicate AllSpace(s: string)
  {
    forall i :: 0 <= i < |s| ==> IsSpace(s[i])
  }

  /** Neither the first nor the last character of `s` is whitespace. */
  predicate NoEdgeSpace(s: string)
  {
    |s| == 0 || (!IsSpace(s[0]) && !IsSpace(s[|s| - 1]))
  }

  /** The length of the longest all-whitespace prefix of `s`. */
  function LeadingSpace(s: string): (n: nat)
    ensures n <= |s|
    ensures n < |s| ==> !IsSpace(s[n])
  {
    if |s| > 0 && IsSpace(s[0]) then LeadingSpace(s[1..]) + 1 else 0
  }

  /** The prefix LeadingSpace measures is all whitespace. */
  lemma {:induction false} LeadingSpaceIsSpace(s: string)
    ensures AllSpace(s[..LeadingSpace(s)])
  {
    if |s| > 0 && IsSpace(s[0]) {
      var m := LeadingSpace(s[1..]);
      LeadingSpaceIsSpace(s[1..]);
      var u := s[..m + 1];
      forall k | 0 <= k < |u| ensures IsSpace(u[k]) {
        if k > 0 {
          assert u[k] == s[1..][..m][k - 1];
        }
      }
    }
  }

  /** The length of the longest all-whitespace suffix of `s`. */
  function TrailingSpace(s: string): (n: nat)
    ensures n <= |s|
    ensures n < |s| ==> !IsSpace(s[|s| - n - 1])
  {
    if |s| > 0 && IsSpace(s[|s| - 1]) then TrailingSpace(s[..|s| - 1]) + 1 else 0
  }

  /** The suffix TrailingSpace measures is all whitespace. */
  lemma {:induction false} TrailingSpaceIsSpace(s: string)
    ensures AllSpace(s[|s| - TrailingSpace(s)..])
  {
    if |s| > 0 && IsSpace(s[|s| - 1]) {
      var t := s[..|s| - 1];
      TrailingSpaceIsSpace(t);
      SpaceSuffixStep(s, TrailingSpace(t));
    }
  }

  /** One more trailing space character extends a whitespace suffix by one. */
  lemma SpaceSuffixStep(s: string, m: nat)
    requires 0 < |s| && IsSpace(s[|s| - 1])
    requires m <= |s| - 1 && AllSpace(s[..|s| - 1][|s| - 1 - m..])
    ensures AllSpace(s[|s| - (m + 1)..])
  {
    var t, u := s[..|s| - 1], s[|s| - (m + 1)..];
    forall k | 0 <= k < |u| ensures IsSpace(u[k]) {
      if k < m {
        assert u[k] == t[|t| - m..][k];
      }
    }
  }

  /** `r` is `s` minus an all-whitespace prefix and an all-whitespace suffix. */
  ghost predicate StrippedFrom(r: string, s: string)
  {
    exists i, j :: 0 <= i <= j <= |s| && r == s[i..j] && AllSpace(s[..i]) && AllSpace(s[j..])
  }

  /** `s` without its leading and trailing whitespace (Python's `str.strip()`). */
  function Strip(s: string): (r: string)
    ensures NoEdgeSpace(r)
    ensures StrippedFrom(r, s)
    ensures IsSliceOf(r, s)
  {
    var a := LeadingSpace(s);
    var b := TrailingSpace(s[a..]);
    LeadingSpaceIsSpace(s);
    TrailingSpaceIsSpace(s[a..]);
    assert s[a..][|s[a..]| - b..] == s[|s| - b..];
    assert b < |s| - a ==> s[a..][|s[a..]| - b - 1] == s[|s| - b - 1];
    StripWitness(s, a, b);
    s[a..|s| - b]
  }

  /**
   * Cutting `s` after a whitespace prefix of length `a` and before a
   * whitespace suffix of length `b`, each ending at a non-space character,
   * meets Strip's three postconditions.
   */
  lemma StripWitness(s: string, a: nat, b: nat)
    requires a + b <= |s|
    requires AllSpace(s[..a]) && AllSpace(s[|s| - b..])
    requires a < |s| ==> !IsSpace(s[a])
    requires a + b < |s| ==> !IsSpace(s[|s| - b - 1])
    ensures NoEdgeSpace(s[a..|s| - b]) && StrippedFrom(s[a..|s| - b], s) && IsSliceOf(s[a..|s| - b], s)
  {
    var j := |s| - b;
    var r := s[a..j];
    assert 0 <= a <= j <= |s| && r == s[a..j];
    if |r| > 0 {
      assert r[0] == s[a] && r[|r| - 1] == s[j - 1];
    }
  }

  lemma {:induction false} LeadingSpaceExact(s: string, i: nat)
    requires i < |s| && AllSpace(s[..i]) && !IsSpace(s[i])
    ensures LeadingSpace(s) == i
  {
    if i > 0 {
      assert s[0] == s[..i][0];
      assert s[1..][..i - 1] == s[1..i];
      assert s[1..i] == s[..i][1..];
      LeadingSpaceExact(s[1..], i - 1);
    }
  }

  lemma {:induction false} LeadingSpaceAll(s: string)
    requires AllSpace(s)
    ensures LeadingSpace(s) == |s|
  {
    if |s| > 0 {
      assert AllSpace(s[1..]) by {
        forall k | 0 <= k < |s| - 1 ensures IsSpace(s[1..][k]) {
          assert s[1..][k] == s[k + 1];
        }
      }
      LeadingSpaceAll(s[1..]);
    }
  }

  lemma {:induction false} TrailingSpaceExact(s: string, k: nat)
    requires k < |s| && AllSpace(s[|s| - k..]) && !IsSpace(s[|s| - k - 1])
    ensures TrailingSpace(s) == k
  {
    if k > 0 {
      var t := s[..|s| - 1];
      assert s[|s| - 1] == s[|s| - k..][k - 1];
      var u := t[|t| - (k - 1)..];
      forall j | 0 <= j < k - 1 ensures IsSpace(u[j]) {
        assert u[j] == s[|s| - k..][j];
      }
      assert t[|t| - (k - 1) - 1] == s[|s| - k - 1];
      TrailingSpaceExact(t, k - 1);
    }
  }

  /**
   * Strip has exactly one possible result: any whitespace-trimmed slice of
   * `s` whose ends are not whitespace is `Strip(s)`.
   */
  lemma StripUnique(s: string, r: string)
    requires NoEdgeSpace(r) && StrippedFrom(r, s)
    ensures r == Strip(s)
  {
    var i, j :| 0 <= i <= j <= |s| && r == s[i..j] && AllSpace(s[..i]) && AllSpace(s[j..]);
    if i < j {
      StripCut(s, r, i, j);
    } else {
      StripEmptyCut(s, i);
    }
  }

  lemma StripCut(s: string, r: string, i: nat, j: nat)
    requires i < j <= |s| && r == s[i..j] && AllSpace(s[..i]) && AllSpace(s[j..]) && NoEdgeSpace(r)
    ensures Strip(s) == r
  {
    assert r[0] == s[i] && r[|r| - 1] == s[j - 1];
    StripAt(s, i, j);
  }

  lemma StripEmptyCut(s: string, i: nat)
    requires i <= |s| && AllSpace(s[..i]) && AllSpace(s[i..])
    ensures Strip(s) == s[i..i]
  {
    AllSpaceJoin(s, i);
    StripAllSpace(s);
  }

  /** A text of whitespace only strips to nothing. */
  lemma StripAllSpace(s: string)
    requires AllSpace(s)
    ensures Strip(s) == ""
  {
    LeadingSpaceAll(s);
    assert s[|s|..] == "";
  }

  /** Strip cuts exactly at `i` and `j` when those are the ends of the non-space run. */
  lemma StripAt(s: string, i: nat, j: nat)
    requires i < j <= |s| && AllSpace(s[..i]) && AllSpace(s[j..])
    requires !IsSpace(s[i]) && !IsSpace(s[j - 1])
    ensures Strip(s) == s[i..j]
  {
    LeadingSpaceExact(s, i);
    var t := s[i..];
    assert t[|t| - (|s| - j)..] == s[j..];
    assert t[|t| - (|s| - j) - 1] == s[j - 1];
    TrailingSpaceExact(t, |s| - j);
  }

  lemma AllSpaceJoin(s: string, i: nat)
    requires i <= |s| && AllSpace(s[..i]) && AllSpace(s[i..])
    ensures AllSpace(s)
  {
    forall k | 0 <= k < |s| ensures IsSpace(s[k]) {
      if k < i {
        assert s[k] == s[..i][k];
      } else {
        assert s[k] == s[i..][k - i];
      }
    }
  }

  lemma StripIdempotent(s: string)
    ensures Strip(Strip(s)) == Strip(s)
  {
    var r := Strip(s);
    assert r == r[0..|r|] && r[..0] == [] && r[|r|..] == [];
    StripUnique(r, r);
  }

  /** Whitespace around an already stripped text is exactly what Strip removes. */
  lemma StripPadded(pre: string, body: string, post: string)
    requires AllSpace(pre) && AllSpace(post) && NoEdgeSpace(body)
    ensures Strip(pre + body + post) == body
  {
    var s := pre + body + post;
    var i, j := |pre|, |pre| + |body|;
    assert s[i..j] == body;
    assert s[..i] == pre;
    assert s[j..] == post;
    StripUnique(s, body);
  }

  // ---------------------------------------------------------------------------
  // Fixed-width decimal digits

  predicate IsDigit(c: char)
  {
    '0' <= c <= '9'
  }

  function Pow10(w: nat): (p: nat)
    ensures p >= 1
  {
    if w == 0 then 1 else 10 * Pow10(w - 1)
  }

  function DigitChar(d: nat): char
    requires d < 10
  {
    ('0' as int + d) as char
  }

  /** The last `w` decimal digits of `n`, zero-padded on the left. */
  function Digits(n: nat, w: nat): (s: string)
    ensures |s| == w
    ensures forall k :: 0 <= k < |s| ==> IsDigit(s[k])
  {
    if w == 0 then "" else Digits(n / 10, w - 1) + [DigitChar(n % 10)]
  }

  /** The value of a decimal digit (zero for any other character). */
  function DigitValue(c: char): (d: nat)
    ensures d < 10
    ensures IsDigit(c) ==> DigitChar(d) == c
  {
    if IsDigit(c) then (c as int - '0' as int) as nat else 0
  }

  /** The number a string of decimal digits denotes. */
  function DigitsValue(s: string): nat
  {
    if |s| == 0 then 0 else 10 * DigitsValue(s[..|s| - 1]) + DigitValue(s[|s| - 1])
  }

  lemma ModUnique(n: int, m: int, a: int, r: int)
    requires m > 0 && n == m * a + r && 0 <= r < m
    ensures n % m == r
  {
    var k := n / m - a;
    assert m * k == r - n % m;
    MulSign(m, k);
  }

  lemma MulSign(m: int, k: int)
    requires m > 0
    ensures k >= 1 ==> m * k >= m
    ensures k <= -1 ==> m * k <= -m
  {
    if k >= 1 {
      assert m * k == m * (k - 1) + m;
    } else if k <= -1 {
      assert m * k == m * (k + 1) - m;
    }
  }

  lemma ModStep(n: nat, p: nat)
    requires p >= 1
    ensures n % (10 * p) == 10 * ((n / 10) % p) + n % 10
  {
    var q, d := n / 10, n % 10;
    var a, b := q / p, q % p;
    assert n == 10 * q + d;
    assert q == p * a + b;
    assert 10 * q == 10 * (p * a) + 10 * b;
    assert 10 * (p * a) == (10 * p) * a;
    assert b < p;
    assert 10 * b + d < 10 * p;
    ModUnique(n, 10 * p, a, 10 * b + d);
  }

  /** Reading back the zero-padded digits gives `n` modulo `10^w`. */
  lemma {:induction false} DigitsRoundTrip(n: nat, w: nat)
    ensures DigitsValue(Digits(n, w)) == n % Pow10(w)
  {
    if w > 0 {
      var s := Digits(n, w);
      assert s[..|s| - 1] == Digits(n / 10, w - 1);
      DigitsRoundTrip(n / 10, w - 1);
      ModStep(n, Pow10(w - 1));
    }
  }
}

=== FILE: token_tracker.dfy ===
/**
 * Token and cost estimation: a text counts one token per four characters,
 * and the cost prices input and output tokens separately, rounded to six
 * decimal places.
 */
module TokenTracker {
  import opened Models

  /** Characters per estimated token. */
  const CharsPerToken: nat := 4

  /** The estimated token count of a text: its length divided by four, rounded down. */
  function EstimateTokens(text: string): (n: nat)
    ensures CharsPerToken * n <= |text| < CharsPerToken * n + CharsPerToken
  {
    |text| / CharsPerToken
  }

  /** A longer text never has fewer estimated tokens. */
  lemma EstimateMonotone(a: string, b: string)
    requires |a| <= |b|
    ensures EstimateTokens(a) <= EstimateTokens(b)
  {
  }

  /**
   * Estimating a concatenation gives the sum of the parts' estimates, or one
   * more (when the parts' left-over characters make up a further token).
   */
  lemma EstimateConcat(a: string, b: string)
    ensures EstimateTokens(a) + EstimateTokens(b) <= EstimateTokens(a + b) <= EstimateTokens(a) + EstimateTokens(b) + 1
  {
    var na, nb, n := EstimateTokens(a), EstimateTokens(b), EstimateTokens(a + b);
    assert 4 * (na + nb) <= |a + b| < 4 * (na + nb) + 8;
  }

  // ---------------------------------------------------------------------------
  // Rounding to six decimal places

  const Millionths: real := 1000000.0

  /** A whole number of millionths: at most six decimal places. */
  predicate HasSixDecimals(q: real)
  {
    (q * Millionths).Floor as real == q * Millionths
  }

  /**
   * Python's `round(r, 6)` on the exact value `r`: the nearest multiple of
   * one millionth, with a tie going to the even multiple.
   */
  function Round6(r: real): (q: real)
    ensures HasSixDecimals(q)
    ensures -0.0000005 <= q - r <= 0.0000005
  {
    var m := r * Millionths;
    var n := m.Floor;
    var frac := m - n as real;
    var k := if frac < 0.5 then n
             else if frac > 0.5 then n + 1
             else if n % 2 == 0 then n
             else n + 1;
    k as real / Millionths
  }

  /** A value that already has at most six decimals is left unchanged. */
  lemma Round6Exact(k: int)
    ensures Round6(k as real / Millionths) == k as real / Millionths
  {
    var m := (k as real / Millionths) * Millionths;
    assert m == k as real;
    assert m.Floor == k;
  }

  /** Rounding never reverses the order of two values. */
  lemma Round6Monotone(r: real, r': real)
    requires r <= r'
    ensures Round6(r) <= Round6(r')
  {
    var m, m' := r * Millionths, r' * Millionths;
    assert m <= m';
    var n, n' := m.Floor, m'.Floor;
    assert n <= n';
  }

  // ---------------------------------------------------------------------------
  // Cost

  /** Price in USD of a thousand input tokens and of a thousand output tokens. */
  const CostPer1KInput: real := 0.000075
  const CostPer1KOutput: real := 0.0003

  /** The cost before rounding. */
  function RawCost(inputTokens: int, outputTokens: int): real
  {
    (inputTokens as real / 1000.0) * CostPer1KInput + (outputTokens as real / 1000.0) * CostPer1KOutput
  }

  /** The estimated cost in USD of a generation, to six decimal places. */
  function CalculateCost(inputTokens: int, outputTokens: int): (c: real)
    ensures HasSixDecimals(c)
    ensures -0.0000005 <= c - RawCost(inputTokens, outputTokens) <= 0.0000005
  {
    Round6(RawCost(inputTokens, outputTokens))
  }

  /** The per-thousand prices are the published per-million prices: $0.075 in, $0.30 out. */
  lemma RawCostPerMillion(inputTokens: int, outputTokens: int)
    ensures RawCost(inputTokens, outputTokens)
         == inputTokens as real * 0.075 / 1000000.0 + outputTokens as real * 0.30 / 1000000.0
  {
  }

  /** No tokens cost nothing, and a non-negative usage has a non-negative cost. */
  lemma CostNonNegative(inputTokens: nat, outputTokens: nat)
    ensures CalculateCost(0, 0) == 0.0
    ensures CalculateCost(inputTokens, outputTokens) >= 0.0
  {
    Round6Exact(0);
    assert RawCost(0, 0) == 0.0 / Millionths;
    Round6Monotone(0.0, RawCost(inputTokens, outputTokens));
  }

  /** More tokens never cost less. */
  lemma CostMonotone(i: int, o: int, i': int, o': int)
    requires i <= i' && o <= o'
    ensures CalculateCost(i, o) <= CalculateCost(i', o')
  {
    Round6Monotone(RawCost(i, o), RawCost(i', o'));
  }

  /** 245 input and 350 output tokens cost 0.000123375 USD, shown as 0.000123. */
  lemma CostExample()
    ensures RawCost(245, 350) == 0.000123375
    ensures CalculateCost(245, 350) == 0.000123
  {
    var m := RawCost(245, 350) * Millionths;
    assert m == 123.375;
    assert m.Floor == 123;
  }

  // ---------------------------------------------------------------------------
  // Usage summary

  /** Token counts and cost of one generation from its prompt and its output. */
  function UsageSummary(inputText: string, outputText: string): (u: TokenUsage)
    ensures ValidTokenUsage(u)
    ensures 4 * u.promptTokens <= |inputText| < 4 * u.promptTokens + 4
    ensures 4 * u.completionTokens <= |outputText| < 4 * u.completionTokens + 4
    ensures u.totalTokens == u.promptTokens + u.completionTokens
    ensures u.estimatedCost == CalculateCost(u.promptTokens, u.completionTokens)
  {
    var i := EstimateTokens(inputText);
    var o := EstimateTokens(outputText);
    CostNonNegative(i, o);
    TokenUsage(i, o, i + o, CalculateCost(i, o))
  }

  /** Longer output never lowers the reported tokens or cost. */
  lemma UsageMonotone(inputText: string, outputText: string, outputText': string)
    requires |outputText| <= |outputText'|
    ensures UsageSummary(inputText, outputText).completionTokens <= UsageSummary(inputText, outputText').completionTokens
    ensures UsageSummary(inputText, outputText).estimatedCost <= UsageSummary(inputText, outputText').estimatedCost
  {
    EstimateMonotone(outputText, outputText');
    var i := EstimateTokens(inputText);
    CostMonotone(i, EstimateTokens(outputText), i, EstimateTokens(outputText'));
  }
}

=== FILE: utf8.dfy ===
/**
 * UTF-8 encoding of strings (RFC 3629, section 3), used for the byte size
 * an artifact records (`len(content.encode('utf-8'))`).
 */
module Utf8 {

  type Byte = b: int | 0 <= b < 0x100

  /** The number of bytes RFC 3629 uses for a scalar value of this size. */
  function Width(c: char): (w: nat)
    ensures 1 <= w <= 4
  {
    var n := c as int;
    if n < 0x80 then 1
    else if n < 0x800 then 2
    else if n < 0x1_0000 then 3
    else 4
  }

  /** The UTF-8 byte sequence of one Unicode scalar value. */
  function EncodeChar(c: char): (bs: seq<Byte>)
    ensures |bs| == Width(c)
    ensures |bs| == 1 <==> bs[0] < 0x80
    ensures forall k :: 1 <= k < |bs| ==> 0x80 <= bs[k] < 0xC0
  {
    var n := c as int;
    if n < 0x80 then
      [n]
    else if n < 0x800 then
      [0xC0 + n / 0x40, 0x80 + n % 0x40]
    else if n < 0x1_0000 then
      [0xE0 + n / 0x1000, 0x80 + (n / 0x40) % 0x40, 0x80 + n % 0x40]
    else
      [0xF0 + n / 0x4_0000, 0x80 + (n / 0x1000) % 0x40, 0x80 + (n / 0x40) % 0x40, 0x80 + n % 0x40]
  }

  /** The UTF-8 encoding of a string: its characters' encodings, in order. */
  function Encode(s: string): seq<Byte>
  {
    if |s| == 0 then [] else Encode(s[..|s| - 1]) + EncodeChar(s[|s| - 1])
  }

  /** Encoding a concatenation encodes each part. */
  lemma {:induction false} EncodeAppend(a: string, b: string)
    ensures Encode(a + b) == Encode(a) + Encode(b)
  {
    if |b| == 0 {
      assert a + b == a;
    } else {
      assert (a + b)[..|a + b| - 1] == a + b[..|b| - 1];
      EncodeAppend(a, b[..|b| - 1]);
    }
  }

  /** Every character needs one to four bytes. */
  lemma {:induction false} EncodeLengthBounds(s: string)
    ensures |s| <= |Encode(s)| <= 4 * |s|
  {
    if |s| > 0 {
      EncodeLengthBounds(s[..|s| - 1]);
    }
  }

  predicate IsAscii(s: string)
  {
    forall k :: 0 <= k < |s| ==> s[k] as int < 0x80
  }

  /** An ASCII text has exactly one byte per character. */
  lemma {:induction false} AsciiByteLength(s: string)
    requires IsAscii(s)
    ensures |Encode(s)| == |s|
  {
    if |s| > 0 {
      var t := s[..|s| - 1];
      assert IsAscii(t) by {
        forall k | 0 <= k < |t| ensures t[k] as int < 0x80 {
          assert t[k] == s[k];
        }
      }
      AsciiByteLength(t);
    }
  }
}

=== FILE: wrappers.dfy ===
/** Failure-carrying datatypes used to model Python's exceptions and missing values. */
module Wrappers {

  /** A value that may be absent (Python's `None`). */
  datatype Option<+T> = None | Some(value: T) {
    function GetOr(default: T): T
    {
      match this
      case Some(v) => v
      case None => default
    }
  }

  /** Either a value or the error that was raised instead of producing it. */
  datatype Result<+R, +E> = Success(value: R) | Failure(error: E)
}
